=== FILE: README.md ===
# QMK pointing-sensor drivers in Dafny

This project models four sensor drivers from a QMK keyboard firmware. It proves properties of each model:

- **maXTouch** (`drivers/sensors/maxtouch.c`):
  - the driver discovers the controller's object table, which gives register addresses and report-ID ranges;
  - it decodes T100 touch messages into a multi-finger digitizer report.
- **Azoteq IQS5xx** (`drivers/sensors/azoteq_iqs5xx.c`, `.h`):
  - every register access is followed by an end-of-communication session;
  - the driver uses a read-modify-write of the system and gesture configuration;
  - the packed bit-field structs are laid out as in the header;
  - the mouse report is built from the 10-byte base-data frame.
- **Bela Trill** (`drivers/sensors/bela_trill.c`):
  - a two-state contact tracker turns absolute touch positions into clamped relative motion.
- **Analog joystick** (`drivers/sensors/analog_joystick.c`):
  - an axis calibrator maps ADC samples to a signed percentage of the deflection toward the rail;
  - an integer-division dead zone is applied.

Shared conventions:

- Every bus transaction is an oracle value `Reply<T>(status, value)`. `value` is what the transport left in the caller's buffer.
- The IQS5xx operations also return the trace of transactions they issue.
- The drivers' function-local and file-level statics are explicit state passed in and returned: the maXTouch `Registry`, `TrillState` and the joystick `Origins`.
- C integer widths are explicit (`CTypes`): `ToUint16` and `ToInt16` wrap, and `Int8OfByte` reinterprets a byte as `int8_t`.

Modules:

| file | module | what it holds |
|---|---|---|
| `ctypes.dfy` | `CTypes` | fixed-width integer types and conversions |
| `bus.dfy` | `Bus` | transport status and the reply oracle |
| `reports.dfy` | `Reports` | mouse and digitizer reports, button bits |
| `maxtouch_objects.dfy` | `MaxTouchObjects` | driver macros, the object registry, the object-table walk |
| `maxtouch_messages.dfy` | `MaxTouchMessages` | T100 message decoding, `maxtouch_get_report` |
| `iqs5xx_wire.dfy` | `Iqs5xxWire` | packed register structs of `azoteq_iqs5xx.h` |
| `iqs5xx.dfy` | `Iqs5xx` | register sessions, configuration, `azoteq_iqs5xx_get_report` |
| `bela_trill.dfy` | `BelaTrill` | payload layout, touch detection, the contact state machine |
| `analog_joystick.dfy` | `AnalogJoystick` | axis coordinate, mouse component, read/init/get_report |

`maxtouch.h` is not part of this model. Its constants are those of the maXTouch object protocol:

- the T100 touch-event codes 0 to 9 in the low nibble of message byte 0;
- the 7-byte information block;
- the 6-byte object-table element.

`DIGITIZER_FINGER_COUNT` is 5. The mouse-report range is the 8-bit one, -128 to 127. The declaration of `azoteq_iqs5xx_gesture_config_t` is not part of this model, so the gesture block is modelled field by field rather than byte by byte.

## Model

| member | source | states |
|---|---|---|
| CTypes.ToUint16 | drivers/sensors/maxtouch.c:152-155 | conversion to `uint16_t` agrees with its argument modulo 2^16 and is the identity on the type's range |
| CTypes.ToUint16Add | drivers/sensors/maxtouch.c:152-155 | converting to 16 bits before or after adding a constant gives the same `uint16_t` |
| CTypes.ToInt16 | drivers/sensors/analog_joystick.c:43-47 | conversion to `int16_t` agrees modulo 2^16 and is the identity on the type's range |
| CTypes.Int8OfByte | drivers/sensors/azoteq_iqs5xx.c:162-163 | the `(int8_t)` cast of a byte agrees with it modulo 256 and keeps bytes below 0x80 |
| Reports.HandleButtons | drivers/sensors/azoteq_iqs5xx.c:144-149 | setting button N sets or clears exactly bit N and leaves every other button bit unchanged |
| MaxTouchObjects.SwapBytes | drivers/sensors/maxtouch.c:13 | `SWAP_BYTES` on a 16-bit value puts the low byte high and the high byte low |
| MaxTouchObjects.SwapBytesIsTruncatedShift | drivers/sensors/maxtouch.c:13 | the byte exchange equals `a << 8` or-ed with `a >> 8`, truncated to 16 bits |
| MaxTouchObjects.SwapBytesInvolution | drivers/sensors/maxtouch.c:122 | swapping a register address twice gives it back |
| MaxTouchObjects.DivideUnsignedRound | drivers/sensors/maxtouch.c:11 | the quotient rounds halves up: `r*d <= n + d/2 < (r+1)*d` |
| MaxTouchObjects.DivideUnsignedRoundIsNearest | drivers/sensors/maxtouch.c:11 | the rounded quotient's multiple lies within d/2 of n, and no other multiple of d is closer |
| MaxTouchObjects.CpiToSamples | drivers/sensors/maxtouch.c:12 | the sample count times 254 is within 127 of `cpi * mm * 10` |
| MaxTouchObjects.StoredAddressIsSwapped | drivers/sensors/maxtouch.c:125-126 | the stored address is the element's little-endian address byte-swapped, ready for a 16-bit register read |
| MaxTouchObjects.FingerReportIds | drivers/sensors/maxtouch.c:154-156 | the first n finger IDs are `report_id + 2 + k` in 16 bits; later entries keep their old values |
| MaxTouchObjects.FingerIdsFollowFirst | drivers/sensors/maxtouch.c:152-155 | each finger ID is the stored 16-bit first T100 ID plus 2 plus its index |
| MaxTouchObjects.SetAddress | drivers/sensors/maxtouch.c:127-151 | recording an address changes only the address of that object type |
| MaxTouchObjects.RecordT100Ids | drivers/sensors/maxtouch.c:150-157 | a T100 element sets first and second IDs to `report_id` and `report_id+1` and `min(FINGER_COUNT, report_ids_per_instance)` consecutive finger IDs; the registry invariant is kept and no address changes |
| MaxTouchObjects.Record | drivers/sensors/maxtouch.c:124-158 | an unknown type changes nothing; a known type updates its own address only; T5 sets the maximum message size to `size_minus_one - 1` in 16 bits; T100 sets the report IDs |
| MaxTouchObjects.StepSummarises | drivers/sensors/maxtouch.c:120-164 | one iteration keeps the walk state in step with the reference summary of the elements read so far |
| MaxTouchObjects.InitialSummarises | drivers/sensors/maxtouch.c:118-119 | before the loop, the counter 1, the address 7 and the zeroed statics summarise an empty table |
| MaxTouchObjects.RunWalk | drivers/sensors/maxtouch.c:118-164 | after the loop, the walk state summarises every reply; the i-th read targets the byte-swapped address after the elements read successfully before it |
| MaxTouchObjects.WalkObjectTable | drivers/sensors/maxtouch.c:118-164 | the next report ID is 1 plus the IDs of every element read, known or not; each known address is that of the last element of its type, else 0; T5 size and T100 IDs come from the last T5 and T100 elements |
| MaxTouchObjects.Discover | drivers/sensors/maxtouch.c:106-167 | a failed information-block read issues no element reads and leaves every static zero; otherwise the addresses and T100 IDs are those of the walk |
| MaxTouchMessages.LittleEndian16 | drivers/sensors/maxtouch.c:274-275 | the position's low byte is `data[1]` (or `data[3]`) and its high byte `data[2]` (or `data[4]`) |
| MaxTouchMessages.ContactIdInRange | drivers/sensors/maxtouch.c:270-272 | a report ID inside the finger range gives a contact ID below `num_reports` |
| MaxTouchMessages.UpdateFinger | drivers/sensors/maxtouch.c:273-286 | DOWN sets the tip; UP, UNSUP and DOWNUP clear it; other events keep it. Confidence is true exactly when the event is neither SUP nor DOWNSUP. UP keeps the position and every other event overwrites it |
| MaxTouchMessages.ApplyMessage | drivers/sensors/maxtouch.c:266-291 | the first T100 ID and IDs outside the finger range leave the report unchanged; otherwise only finger `id - subsequent[0]` changes, and buttons never change |
| MaxTouchMessages.ApplyMessages | drivers/sensors/maxtouch.c:261-292 | every finger ends as `FingerAfter`: the messages addressing it applied in queue order, the rest skipped; fingers at or beyond `num_reports`, and fingers that no message addresses, keep their state; buttons never change |
| MaxTouchMessages.GetReport | drivers/sensors/maxtouch.c:254-297 | no T44 address or a failed count read returns the report unchanged; otherwise every finger is `FingerAfter` the buffers read, in queue order; buttons and fingers beyond `num_reports` never change |
| MaxTouchMessages.GetReportIgnoresReadStatus | drivers/sensors/maxtouch.c:262-268 | the status of each message read is never consulted: equal buffer contents give the same report whatever the statuses |
| MaxTouchMessages.DownThenUp | drivers/sensors/maxtouch.c:276-285 | a DOWN then an UP for one contact raises then lowers the tip and keeps the DOWN's position |
| MaxTouchMessages.EmptyMessageIgnored | drivers/sensors/maxtouch.c:262-266 | the zero-initialised message buffer changes no finger when neither T100 range includes ID 0 |
| Iqs5xxWire.CombineHighLow | drivers/sensors/azoteq_iqs5xx.h:89 | `h << 8` or-ed with `l` keeps h as the high byte and l as the low byte |
| Iqs5xxWire.SplitHighLow | drivers/sensors/azoteq_iqs5xx.c:97-98 | splitting a 16-bit rate into high and low bytes is undone by combining them |
| Iqs5xxWire.SplitCombine | drivers/sensors/azoteq_iqs5xx.c:97-98 | combining then splitting gives the byte pair back |
| Iqs5xxWire.EncodeGestureEvents0 | drivers/sensors/azoteq_iqs5xx.h:16-24 | single tap is bit 0, press-and-hold bit 1, the four swipes bits 2 to 5, and the unused field the top two bits |
| Iqs5xxWire.DecodeGestureEvents0 | drivers/sensors/azoteq_iqs5xx.h:16-24 | every byte decodes to a valid record that encodes back to it |
| Iqs5xxWire.GestureEvents0RoundTrip | drivers/sensors/azoteq_iqs5xx.h:16-24 | decoding an encoded record gives it back |
| Iqs5xxWire.EncodeGestureEvents1 | drivers/sensors/azoteq_iqs5xx.h:26-31 | two-finger tap is bit 0, scroll bit 1, zoom bit 2, and the unused field the top five bits |
| Iqs5xxWire.DecodeGestureEvents1 | drivers/sensors/azoteq_iqs5xx.h:26-31 | every byte decodes to a valid record that encodes back to it |
| Iqs5xxWire.GestureEvents1RoundTrip | drivers/sensors/azoteq_iqs5xx.h:26-31 | decoding an encoded record gives it back |
| Iqs5xxWire.EncodeSystemInfo0 | drivers/sensors/azoteq_iqs5xx.h:33-40 | the charging mode is the low three bits, followed by the five status flags in declaration order |
| Iqs5xxWire.DecodeSystemInfo0 | drivers/sensors/azoteq_iqs5xx.h:33-40 | every byte decodes to a valid record that encodes back to it |
| Iqs5xxWire.SystemInfo0RoundTrip | drivers/sensors/azoteq_iqs5xx.h:33-40 | decoding an encoded record gives it back |
| Iqs5xxWire.EncodeSystemInfo1 | drivers/sensors/azoteq_iqs5xx.h:42-50 | the six status flags are bits 0 to 5 in declaration order, and the unused field is the top two bits |
| Iqs5xxWire.DecodeSystemInfo1 | drivers/sensors/azoteq_iqs5xx.h:42-50 | every byte decodes to a valid record that encodes back to it |
| Iqs5xxWire.SystemInfo1RoundTrip | drivers/sensors/azoteq_iqs5xx.h:42-50 | decoding an encoded record gives it back |
| Iqs5xxWire.EncodeSystemConfig1 | drivers/sensors/azoteq_iqs5xx.h:78-87 | the eight configuration flags are bits 0 to 7 in declaration order |
| Iqs5xxWire.DecodeSystemConfig1 | drivers/sensors/azoteq_iqs5xx.h:78-87 | every byte decodes to a record that encodes back to it |
| Iqs5xxWire.SystemConfig1RoundTrip | drivers/sensors/azoteq_iqs5xx.h:78-87 | decoding an encoded record gives it back |
| Iqs5xxWire.EncodeBaseData | drivers/sensors/azoteq_iqs5xx.h:57-68 | the frame is 10 bytes: cycle time at 0, then gesture events 0, gesture events 1, system info 0 and system info 1 at 1 to 4, the finger count at 5, then x and y high byte first |
| Iqs5xxWire.DecodeBaseData | drivers/sensors/azoteq_iqs5xx.h:57-68 | every 10-byte frame decodes to a valid record that encodes back to it |
| Iqs5xxWire.BaseDataRoundTrip | drivers/sensors/azoteq_iqs5xx.h:57-68 | decoding an encoded base-data record gives it back |
| Iqs5xxWire.EncodeReportData | drivers/sensors/azoteq_iqs5xx.h:70-76 | the frame is 5 bytes: the finger count, then x and y high byte first |
| Iqs5xxWire.DecodeReportData | drivers/sensors/azoteq_iqs5xx.h:70-76 | every 5-byte frame decodes to a record that encodes back to it |
| Iqs5xxWire.ReportDataRoundTrip | drivers/sensors/azoteq_iqs5xx.h:70-76 | decoding an encoded report-data record gives it back |
| Iqs5xx.EndSession | drivers/sensors/azoteq_iqs5xx.c:72-77 | ending a session is one write of one byte to 0xEEEE followed by one stop |
| Iqs5xx.PrimaryThenEnd | drivers/sensors/azoteq_iqs5xx.c:60-64 | any transactions free of end writes and stops, followed by the end session, form exactly one closed session |
| Iqs5xx.ReportRateRegisters | drivers/sensors/azoteq_iqs5xx.c:42-46 | `0x057A + 2*mode` is the report-rate register of each charging mode, and distinct modes use distinct registers |
| Iqs5xx.GetReportRate | drivers/sensors/azoteq_iqs5xx.c:79-88 | a mode above LP2 fails with no bus traffic and an untouched buffer; otherwise exactly three events: the read of the mode's register, the end-comms write and the stop, with the read's status |
| Iqs5xx.SetReportRate | drivers/sensors/azoteq_iqs5xx.c:90-102 | a mode above LP2 fails with no bus traffic; otherwise exactly three events: one two-byte write, high byte first, to the mode's register, then the end-comms write and the stop |
| Iqs5xx.EnableEventsIsOr | drivers/sensors/azoteq_iqs5xx.c:108-110 | setting event mode, touch event and TP event on a decoded byte is OR-ing 0x45 into it |
| Iqs5xx.SetEventMode | drivers/sensors/azoteq_iqs5xx.c:104-114 | one session: the read of system config 1, then (only if it succeeded) the write of the read byte OR 0x45 |
| Iqs5xx.SetEventModeKeepsOtherBits | drivers/sensors/azoteq_iqs5xx.c:105-111 | the written byte keeps every bit read and sets bits 0, 2 and 6 only |
| Iqs5xx.SetEventModeIgnoresEnabled | drivers/sensors/azoteq_iqs5xx.c:104 | the `enabled` argument has no effect on the bus traffic |
| Iqs5xx.ConfigureGestures | drivers/sensors/azoteq_iqs5xx.c:116-129 | one session: the read of the gesture block, then (only if it succeeded) the write to the same device with single tap, two-finger tap and scroll on, tap time 500, tap distance 100, scroll distance 5, every other setting as read |
| Iqs5xx.Init | drivers/sensors/azoteq_iqs5xx.c:131-136 | the trace splits into three closed sessions in order: the 5 ms write to the ACTIVE report-rate register; the system-config-1 read and, if it succeeded, its write-back with the event bits set; the gesture-block read and, if it succeeded, its write-back of the tuned block to the same device; each slice is exactly the trace of the corresponding operation, so every session contract carries over; three end-comms writes and three stops in all |
| Iqs5xx.GetBaseData | drivers/sensors/azoteq_iqs5xx.c:66-70 | exactly three events: one read at register 0x000C, the end-comms write and the stop; the decoded record encodes back to the bytes read |
| Iqs5xx.GetReportData | drivers/sensors/azoteq_iqs5xx.c:60-64 | exactly three events: one read at register 0x0011, the end-comms write and the stop; the decoded record encodes back to the bytes read |
| Iqs5xx.GetReport | drivers/sensors/azoteq_iqs5xx.c:138-169 | the bus traffic is exactly the base-data session: one read at 0x000C, the end-comms write and the stop. A failed read gives an empty report. Button 1 is the single-tap bit and button 2 the two-finger-tap bit, with no other button. Scroll puts `(int8_t)x.l` in `v` with no x or y motion; otherwise a touch puts `(int8_t)x.l` and `(int8_t)y.l` in x and y. `h` is always 0 |
| BelaTrill.GetLe | drivers/sensors/bela_trill.c:19 | `GET_LE` keeps `_h` as the high byte and `_l` as the low byte |
| BelaTrill.GetLeInjective | drivers/sensors/bela_trill.c:19 | equal `GET_LE` values come from equal byte pairs |
| BelaTrill.EncodeTouches | drivers/sensors/bela_trill.c:22-27 | each touch is four bytes: location high and low, then size high and low |
| BelaTrill.DecodeTouches | drivers/sensors/bela_trill.c:22-27 | every byte string of whole touches decodes to touches that encode back to it |
| BelaTrill.TouchesRoundTrip | drivers/sensors/bela_trill.c:22-27 | decoding encoded touches gives them back |
| BelaTrill.EncodePayload | drivers/sensors/bela_trill.c:30-35 | the payload is 33 bytes: status at 0, the four vertical touches at 1-16 and the four horizontal touches at 17-32, each touch laid out as `EncodeTouches` places it (so vertical[0].location is at 1-2 and horizontal[0].location at 17-18) |
| BelaTrill.DecodePayload | drivers/sensors/bela_trill.c:30-35 | every 33-byte read decodes to a payload that encodes back to it |
| BelaTrill.PayloadRoundTrip | drivers/sensors/bela_trill.c:30-35 | decoding an encoded payload gives it back |
| BelaTrill.CountTouches | drivers/sensors/bela_trill.c:45-48 | the loop's count stays between its start and 4 |
| BelaTrill.CountTouchesAllOrNothing | drivers/sensors/bela_trill.c:45-48 | the loop stops where it started if `horizontal[0]` is empty, and runs to 4 otherwise |
| BelaTrill.TouchedIffLocationPresent | drivers/sensors/bela_trill.c:45-50 | `touch_count` is 0 or 4, and non-zero exactly when `horizontal[0].location != 0xFFFF` |
| BelaTrill.Constrain | drivers/sensors/bela_trill.c:20 | `CONSTRAIN_HID_XY` saturates into [-128, 127] and is the identity inside it |
| BelaTrill.ConstrainMonotone | drivers/sensors/bela_trill.c:20 | saturation preserves order and is idempotent |
| BelaTrill.Track | drivers/sensors/bela_trill.c:50-67 | a no-touch frame clears `contact` and changes nothing else. A touch frame records the position and sets `contact`; it reports clamped motion only if `contact` was already set. Buttons, `v` and `h` are untouched |
| BelaTrill.GetReport | drivers/sensors/bela_trill.c:41-70 | a failed read changes neither report nor state; on the raw bytes, an empty first horizontal slot ends the contact, and a touch reports `clamp(x - last_x)` and `clamp(last_y - y)` only while in contact |
| BelaTrill.ContactMotionTelescopes | drivers/sensors/bela_trill.c:52-63 | while a finger stays down and moves less than the report range per frame, the x motion reported adds up to the distance since the recorded position |
| BelaTrill.NewContactMotion | drivers/sensors/bela_trill.c:57-63 | over a whole new contact the reported x motion adds up to the last position minus the first |
| AnalogJoystick.AxisCoordinate | drivers/sensors/analog_joystick.c:32-60 | the coordinate lies in [-100, 100]; it is 0 at the origin, at most 0 below the origin and at least 0 above it |
| AnalogJoystick.AxisCoordinateIsTruncatedPercentage | drivers/sensors/analog_joystick.c:51-59 | with the origin inside the rails, a distance of at least the range saturates to exactly ±100; otherwise the magnitude is the truncated percentage of the range |
| AnalogJoystick.NegativeRangeReadsZero | drivers/sensors/analog_joystick.c:51-54 | an origin beyond the rail on that side (negative range) makes the axis read 0 |
| AnalogJoystick.AxisToMouseComponent | drivers/sensors/analog_joystick.c:62-70 | the component is zero exactly when the coordinate is 0 or its magnitude is below `speed_regulator`; otherwise it carries the coordinate and the integer quotient `abs(coordinate) / speed_regulator` |
| AnalogJoystick.MotionFollowsDeflection | drivers/sensors/analog_joystick.c:62-70 | with a positive `speed_max`, the motion follows the direction of the deflection and is 0 at the origin |
| AnalogJoystick.ButtonNeedsPin | drivers/sensors/analog_joystick.c:78-80 | without a click pin no press is reported and the pin level is ignored; a released (high) pin never reads as a press |
| AnalogJoystick.AxesIndependent | drivers/sensors/analog_joystick.c:72-82 | each axis depends only on its own sample: the other axis and the click pin never change it |
| AnalogJoystick.CenteredAxisIsZero | drivers/sensors/analog_joystick.c:72-82 | an axis at its origin reports no motion whatever the configuration |
| AnalogJoystick.InitSamplesAreReference | drivers/sensors/analog_joystick.c:84-92 | the samples at init are the reference of every later read: an axis moves only once its percentage from that sample leaves the dead zone, and then in the direction of the deflection; the pull-up is enabled exactly when the click pin exists |
| AnalogJoystick.GetReport | drivers/sensors/analog_joystick.c:94-108 | the click is button 1 and no other button is set; x and y are the axes' components from the origins captured at init |
| AnalogJoystick.RestAtInit | drivers/sensors/analog_joystick.c:84-108 | a stick that has not moved since init reports no motion on either axis |

## Left out

- I2C and ADC transports, `i2c_init`, pin setup and timeouts: bus results are oracle inputs. The IQS5xx traces omit the timeout argument, including the address passed as the timeout in `azoteq_iqs5xx_get_base_data`.
- Debug printing (`dprintf`, `uprintf`, `pd_dprintf`), including the out-of-range index in the diagnostic of `maxtouch_get_report`.
- maXTouch configuration in `maxtouch_init` (drivers/sensors/maxtouch.c:169-251): T2 is only read, when its address is non-zero, and a failure is only logged; T7 and T8 are zero-filled blocks with a few constant fields, and T46 is written all zero; T100 reads its configuration block and, keeping every field it does not assign, sets fixed values, the matrix sizes and line pitches (taken from the information block read at run time unless `MXT_MATRIX_X_SIZE` and `MXT_MATRIX_Y_SIZE` are configured) and the `CPI_TO_SAMPLES` ranges, and writes the block back whether or not the read succeeded, since the read's status is overwritten unchecked. The block layouts live in a header that is not part of this model, so only `CPI_TO_SAMPLES` is modelled.
- The `MOUSE_EXTENDED_REPORT` branches of `azoteq_iqs5xx_get_report`: they use an undeclared name and do not compile. Only the 8-bit branch is modelled.
- `tmk_core/protocol/chibios/usb_endpoints.c` and the keyboard keymap: configuration tables and callers, not driver logic.
- Reports.HandleButtons: the body of `pointing_device_handle_buttons` is not part of this model; it is taken to set or clear the button's bit.
- MaxTouchMessages.GetReport: requires a non-empty finger range whenever a message's ID is not the first T100 ID. With `t100_num_reports == 0` the source reads `t100_subsequent_report_ids[-1]`, which is out of bounds.
- MaxTouchObjects.Discover: the information block's `num_objects` is taken to match the number of element replies; `num_objects` is a byte, so at most 255 elements are read.
- Iqs5xx.ConfigureGestures: the gesture block is modelled by the fields the driver sets plus an opaque remainder, not as bytes.
- AnalogJoystick.AxisCoordinate: `percent * 100` is computed exactly over the rationals and truncated toward zero; float rounding is not modelled. An out-of-range float-to-`int16_t` conversion is taken as its exact truncated value. A zero range (an origin on the rail) makes the source's conversion undefined and is excluded by a precondition.
- AnalogJoystick.AxisToMouseComponent: the float product `coordinate / 100 * speed_max * steps` and its conversion to `int8_t` are not modelled; the component keeps the coordinate and the step count. `speed_regulator` must be non-zero, because the source divides by it.
- AnalogJoystick.Read: ADC samples are taken as non-negative `int16_t` readings, so the conversions between the `int16_t` origin and the `uint16_t` parameter are the identity.
- BelaTrill.GetReport: the poll's bus address (0x80) and start register (0x03) are not recorded; the read is taken as the reply it returned, with no trace of the transfer.
- BelaTrill.GetReport: the status byte and the touch sizes are decoded but only printed by the source, so no contract mentions them.

=== FILE: analog_joystick.dfy ===
/**
 The analog joystick axis calibrator (`analog_joystick.c`).

 Each axis is sampled by an ADC. The sample taken at start-up is the axis's
 origin; later samples become a signed percentage of the way from the origin
 to the configured rail on that side, and that percentage becomes mouse
 motion after an integer-division dead zone.

 ADC samples are the non-negative `int16_t` values `analogReadPin` yields.
 The float division and `* 100` of the percentage are modelled exactly over
 the rationals and then truncated toward zero, as the conversion to
 `int16_t` does; the final float product that scales motion is left
 symbolic (see `Component`).
 */
module AnalogJoystick {
  import opened CTypes
  import opened Reports

  /** A non-negative ADC reading. */
  type Sample = x: int | 0 <= x < 0x8000

  /** `analog_joystick_config_t`; `button` is absent when the click pin is `NO_PIN`. */
  datatype Config = Config(axisMin: int16, axisMax: int16, speedRegulator: nat, speedMax: int, hasButton: bool)

  /** `xOrigin`, `yOrigin`: sampled once, at init. */
  datatype Origins = Origins(x: int16, y: int16)

  /** Euclidean division by a positive divisor brackets its numerator. */
  lemma FloorBracket(n: int, d: int)
    requires d > 0
    ensures (n / d) * d <= n < (n / d + 1) * d
    ensures 0 <= n ==> (n / d == 0 <==> n < d)
  {
    assert n == (n / d) * d + n % d;
    assert (n / d + 1) * d == (n / d) * d + d;
  }

  /** Multiplication by a positive factor reflects strict order. */
  lemma ProductOrder(a: int, b: int, c: int)
    requires c > 0 && a * c < b * c
    ensures a < b
  {
  }

  /** Division of a non-negative numerator, truncated toward zero as a C conversion to integer does. */
  function TruncatedQuotient(n: nat, d: int): int
    requires d != 0
  {
    if d > 0 then n / d else -(n / -d)
  }

  /** The truncated quotient takes the sign of the divisor. */
  lemma TruncatedQuotientSign(n: nat, d: int)
    requires d != 0
    ensures d > 0 ==> TruncatedQuotient(n, d) >= 0
    ensures d < 0 ==> TruncatedQuotient(n, d) <= 0
  {
    if d < 0 {
      assert n / -d >= 0;
    }
  }

  /** The distance from the origin, the signed range to the rail on that side and the direction (`origin != position`). */
  function Distance(origin: Sample, position: Sample): int {
    if origin > position then origin - position else position - origin
  }

  function Range(cfg: Config, origin: Sample, position: Sample): int16 {
    if origin > position then ToInt16(origin - cfg.axisMin) else ToInt16(cfg.axisMax - origin)
  }

  function Direction(origin: Sample, position: Sample): int {
    if origin > position then -1 else 1
  }

  /** `(int16_t)((float)distanceFromOrigin / range * 100)`: the truncated percentage of the range covered. */
  function Percentage(cfg: Config, origin: Sample, position: Sample): int
    requires Range(cfg, origin, position) != 0
  {
    TruncatedQuotient(100 * Distance(origin, position), Range(cfg, origin, position))
  }

  /** The source divides by the rail range; an origin sitting exactly on a rail leaves the conversion undefined. */
  predicate Calibrated(cfg: Config, origin: Sample, position: Sample) {
    origin != position ==> Range(cfg, origin, position) != 0
  }

  /** `axisCoordinate`: the signed, saturated percentage in [-100, 100]. */
  function AxisCoordinate(cfg: Config, origin: Sample, position: Sample): (r: int16)
    requires Calibrated(cfg, origin, position)
    ensures -100 <= r <= 100
    ensures origin == position ==> r == 0
    ensures position < origin ==> r <= 0
    ensures position > origin ==> r >= 0
  {
    if origin == position then 0
    else
      var coordinate := Percentage(cfg, origin, position);
      if coordinate < 0 then 0
      else if coordinate > 100 then 100 * Direction(origin, position)
      else coordinate * Direction(origin, position)
  }

  /**
   With the origin inside the rails, the magnitude is the truncated share of
   the range covered, capped at 100: `|r| * range <= 100 * distance <
   (|r| + 1) * range` below the cap.
   */
  lemma AxisCoordinateIsTruncatedPercentage(cfg: Config, origin: Sample, position: Sample)
    requires origin != position
    requires Range(cfg, origin, position) > 0
    ensures var r := AxisCoordinate(cfg, origin, position);
      var range := Range(cfg, origin, position);
      var distance := Distance(origin, position);
      && (distance >= range ==> Abs(r) == 100)
      && (distance < range ==>
            Abs(r) * range <= 100 * distance < (Abs(r) + 1) * range)
  {
    var range := Range(cfg, origin, position);
    var distance := Distance(origin, position);
    var q := (100 * distance) / range;
    FloorBracket(100 * distance, range);
    assert q == Percentage(cfg, origin, position);
    if distance >= range {
      assert 100 * range <= 100 * distance;
      ProductOrder(100, q + 1, range);
    } else {
      assert 100 * distance < 100 * range;
      ProductOrder(q, 100, range);
    }
  }

  /**
   With the origin outside the rails on that side (a negative range), the
   truncated percentage is never positive, so the axis reads 0.
   */
  lemma NegativeRangeReadsZero(cfg: Config, origin: Sample, position: Sample)
    requires origin != position
    requires Range(cfg, origin, position) < 0
    ensures AxisCoordinate(cfg, origin, position) == 0
  {
    TruncatedQuotientSign(100 * Distance(origin, position), Range(cfg, origin, position));
  }

  /**
   `axisToMouseComponent` before its final float product: 0 when the
   coordinate is 0 or when `abs(coordinate) / speed_regulator` (an integer
   division, taken first) is 0; otherwise the motion
   `coordinate / 100 * speed_max * steps`, whose conversion to `int8_t` is
   not modelled.
   */
  datatype Component = Zero | Scaled(coordinate: int16, steps: nat)

  /** The motion a `Scaled` component stands for, before conversion to `int8_t`. */
  function Motion(cfg: Config, c: Component): real {
    match c
    case Zero => 0.0
    case Scaled(coordinate, steps) => coordinate as real / 100.0 * cfg.speedMax as real * steps as real
  }

  function AxisToMouseComponent(cfg: Config, origin: Sample, position: Sample): (r: Component)
    requires cfg.speedRegulator > 0
    requires Calibrated(cfg, origin, position)
    ensures var c := AxisCoordinate(cfg, origin, position);
      r.Zero? <==> c == 0 || Abs(c) < cfg.speedRegulator
    ensures r.Scaled? ==>
      && r.coordinate == AxisCoordinate(cfg, origin, position)
      && r.steps * cfg.speedRegulator <= Abs(r.coordinate) < (r.steps + 1) * cfg.speedRegulator
      && r.steps > 0
  {
    var coordinate := AxisCoordinate(cfg, origin, position);
    if coordinate != 0 then
      var steps := Abs(coordinate) / cfg.speedRegulator;
      FloorBracket(Abs(coordinate), cfg.speedRegulator);
      if steps == 0 then Zero else Scaled(coordinate, steps)
    else
      Zero
  }

  /** Motion takes the direction of the deflection when `speed_max` is positive, and is 0 at the origin. */
  lemma MotionFollowsDeflection(cfg: Config, origin: Sample, position: Sample)
    requires cfg.speedRegulator > 0 && cfg.speedMax > 0
    requires Calibrated(cfg, origin, position)
    ensures var m := Motion(cfg, AxisToMouseComponent(cfg, origin, position));
      && (position < origin ==> m <= 0.0)
      && (position > origin ==> m >= 0.0)
      && (position == origin ==> m == 0.0)
  {
    var r := AxisToMouseComponent(cfg, origin, position);
    if r.Scaled? {
      var k := cfg.speedMax as real * r.steps as real;
      assert k >= 0.0;
      assert Motion(cfg, r) == r.coordinate as real / 100.0 * k;
    }
  }

  /** `report_analog_joystick_t`. */
  datatype JoystickReport = JoystickReport(x: Component, y: Component, button: bool)

  /**
   `analog_joystick_read`: `xSample`, `ySample` are the ADC readings and
   `pinHigh` the level of the click pin, which is pulled up, so pressed reads low.
   */
  function Read(cfg: Config, origins: Origins, xSample: Sample, ySample: Sample, pinHigh: bool): (r: JoystickReport)
    requires cfg.speedRegulator > 0
    requires 0 <= origins.x && 0 <= origins.y
    requires Calibrated(cfg, origins.x, xSample) && Calibrated(cfg, origins.y, ySample)
    ensures r.button <==> cfg.hasButton && !pinHigh
    ensures r.x == AxisToMouseComponent(cfg, origins.x, xSample)
    ensures r.y == AxisToMouseComponent(cfg, origins.y, ySample)
  {
    JoystickReport(
      AxisToMouseComponent(cfg, origins.x, xSample),
      AxisToMouseComponent(cfg, origins.y, ySample),
      if cfg.hasButton then !pinHigh else false)
  }

  /** `analog_joystick_init`: the click pin is pulled up when present, and the current samples become the origins. */
  function Init(cfg: Config, xSample: Sample, ySample: Sample): (r: (Origins, bool))
    ensures r.0.x == xSample && r.0.y == ySample
    ensures r.1 <==> cfg.hasButton
  {
    (Origins(xSample, ySample), cfg.hasButton)
  }

  /** Without a click pin the pin level is never looked at, and a released (pulled-up, high) pin never reads as a press. */
  lemma ButtonNeedsPin(cfg: Config, origins: Origins, xSample: Sample, ySample: Sample, pinHigh: bool)
    requires cfg.speedRegulator > 0
    requires 0 <= origins.x && 0 <= origins.y
    requires Calibrated(cfg, origins.x, xSample) && Calibrated(cfg, origins.y, ySample)
    ensures !cfg.hasButton ==>
      && !Read(cfg, origins, xSample, ySample, pinHigh).button
      && Read(cfg, origins, xSample, ySample, true) == Read(cfg, origins, xSample, ySample, false)
    ensures !Read(cfg, origins, xSample, ySample, true).button
  {
  }

  /** Each axis depends on its own sample only: neither the other axis nor the click pin changes it. */
  lemma AxesIndependent(cfg: Config, origins: Origins, xSample: Sample, ySample: Sample, pinHigh: bool,
                        xOther: Sample, yOther: Sample, pinOther: bool)
    requires cfg.speedRegulator > 0
    requires 0 <= origins.x && 0 <= origins.y
    requires Calibrated(cfg, origins.x, xSample) && Calibrated(cfg, origins.y, ySample)
    requires Calibrated(cfg, origins.x, xOther) && Calibrated(cfg, origins.y, yOther)
    ensures Read(cfg, origins, xSample, ySample, pinHigh).x == Read(cfg, origins, xSample, yOther, pinOther).x
    ensures Read(cfg, origins, xSample, ySample, pinHigh).y == Read(cfg, origins, xOther, ySample, pinOther).y
  {
  }

  /** An axis sitting at its origin reports no motion, whatever the configuration and the other axis. */
  lemma CenteredAxisIsZero(cfg: Config, origins: Origins, xSample: Sample, ySample: Sample, pinHigh: bool)
    requires cfg.speedRegulator > 0
    requires 0 <= origins.x && 0 <= origins.y
    requires Calibrated(cfg, origins.x, xSample) && Calibrated(cfg, origins.y, ySample)
    ensures xSample == origins.x ==> Read(cfg, origins, xSample, ySample, pinHigh).x.Zero?
    ensures ySample == origins.y ==> Read(cfg, origins, xSample, ySample, pinHigh).y.Zero?
  {
  }

  /**
   After init, the samples taken then are the reference for every later read:
   an axis moves only once its percentage from that sample leaves the dead
   zone, and then in the direction of the deflection. The pull-up is enabled
   exactly when the click pin exists.
   */
  lemma InitSamplesAreReference(cfg: Config, x0: Sample, y0: Sample, xSample: Sample, ySample: Sample, pinHigh: bool)
    requires cfg.speedRegulator > 0
    requires Calibrated(cfg, x0, xSample) && Calibrated(cfg, y0, ySample)
    ensures var (origins, pullUp) := Init(cfg, x0, y0);
      var r := Read(cfg, origins, xSample, ySample, pinHigh);
      && (pullUp <==> cfg.hasButton)
      && (r.x.Zero? <==> Abs(AxisCoordinate(cfg, x0, xSample)) < cfg.speedRegulator)
      && (r.y.Zero? <==> Abs(AxisCoordinate(cfg, y0, ySample)) < cfg.speedRegulator)
      && (r.x.Scaled? ==> (r.x.coordinate > 0 <==> xSample > x0))
      && (r.y.Scaled? ==> (r.y.coordinate > 0 <==> ySample > y0))
  {
  }

  /** `analog_joystick_get_report`: a zeroed mouse report carrying the motion and the click as button 1; `v` and `h` stay 0. */
  datatype JoystickMouse = JoystickMouse(buttons: bv8, x: Component, y: Component)

  function GetReport(cfg: Config, origins: Origins, xSample: Sample, ySample: Sample, pinHigh: bool): (r: JoystickMouse)
    requires cfg.speedRegulator > 0
    requires 0 <= origins.x && 0 <= origins.y
    requires Calibrated(cfg, origins.x, xSample) && Calibrated(cfg, origins.y, ySample)
    ensures ButtonBit(r.buttons, 0) <==> cfg.hasButton && !pinHigh
    ensures forall k :: 1 <= k < 8 ==> !ButtonBit(r.buttons, k)
    ensures r.x == AxisToMouseComponent(cfg, origins.x, xSample)
    ensures r.y == AxisToMouseComponent(cfg, origins.y, ySample)
  {
    var data := Read(cfg, origins, xSample, ySample, pinHigh);
    JoystickMouse(HandleButtons(0, data.button, 0), data.x, data.y)
  }

  /** Right after init, a stick that has not moved reports no motion on either axis. */
  lemma RestAtInit(cfg: Config, xSample: Sample, ySample: Sample, pinHigh: bool)
    requires cfg.speedRegulator > 0
    ensures var origins := Init(cfg, xSample, ySample).0;
      var r := GetReport(cfg, origins, xSample, ySample, pinHigh);
      r.x.Zero? && r.y.Zero?
  {
  }
}

=== FILE: bela_trill.dfy ===
/**
 The Bela Trill relative-motion tracker (`bela_trill.c`).

 Each poll reads the 33-byte 2D-centroid payload starting at the status
 register. The first horizontal touch decides whether a finger is down; while
 it stays down, successive positions are turned into clamped relative motion.
 The driver's function-local statics (`contact`, `last_x`, `last_y`) are the
 explicit state `TrillState`.
 */
module BelaTrill {
  import opened CTypes
  import opened Bus
  import opened Reports

  const TouchSlots := 4
  const TouchDataSize := 4
  const PayloadSize := 1 + 2 * TouchSlots * TouchDataSize
  /** The location a Trill reports in a slot that holds no touch. */
  const NoTouch := 0xFFFF

  /** `touch_data`: a big-endian location and size, each as a high and a low byte. */
  datatype TouchData = TouchData(locationH: uint8, locationL: uint8, sizeH: uint8, sizeL: uint8)

  /** `payload_2d_centroid`: the status byte, then four vertical and four horizontal touches. */
  datatype Payload = Payload(status: uint8, vertical: seq<TouchData>, horizontal: seq<TouchData>) {
    predicate Valid() {
      |vertical| == TouchSlots && |horizontal| == TouchSlots
    }
  }

  /** `GET_LE`: `_h` is the high byte and `_l` the low byte. */
  function GetLe(h: uint8, l: uint8): (r: uint16)
    ensures r / 0x100 == h && r % 0x100 == l
  {
    h * 0x100 + l
  }

  /** `GET_LE` determines both bytes, so distinct byte pairs give distinct values. */
  lemma GetLeInjective(h1: uint8, l1: uint8, h2: uint8, l2: uint8)
    requires GetLe(h1, l1) == GetLe(h2, l2)
    ensures h1 == h2 && l1 == l2
  {
  }

  function EncodeTouches(ts: seq<TouchData>): (bytes: seq<uint8>)
    ensures |bytes| == TouchDataSize * |ts|
    ensures forall i :: 0 <= i < |ts| ==>
      && bytes[4 * i] == ts[i].locationH && bytes[4 * i + 1] == ts[i].locationL
      && bytes[4 * i + 2] == ts[i].sizeH && bytes[4 * i + 3] == ts[i].sizeL
  {
    if |ts| == 0 then []
    else [ts[0].locationH, ts[0].locationL, ts[0].sizeH, ts[0].sizeL] + EncodeTouches(ts[1..])
  }

  function DecodeTouches(bytes: seq<uint8>): (ts: seq<TouchData>)
    requires |bytes| % TouchDataSize == 0
    ensures TouchDataSize * |ts| == |bytes|
    ensures EncodeTouches(ts) == bytes
    decreases |bytes|
  {
    if |bytes| == 0 then []
    else
      var rest := DecodeTouches(bytes[4..]);
      assert [bytes[0], bytes[1], bytes[2], bytes[3]] + bytes[4..] == bytes;
      [TouchData(bytes[0], bytes[1], bytes[2], bytes[3])] + rest
  }

  /** The packed in-memory layout of the payload, as it arrives on the bus. */
  function EncodePayload(p: Payload): (bytes: seq<uint8>)
    requires p.Valid()
    ensures |bytes| == PayloadSize
    ensures bytes[0] == p.status
    ensures bytes[1] == p.vertical[0].locationH && bytes[2] == p.vertical[0].locationL
    ensures bytes[17] == p.horizontal[0].locationH && bytes[18] == p.horizontal[0].locationL
    ensures bytes[1..17] == EncodeTouches(p.vertical) && bytes[17..] == EncodeTouches(p.horizontal)
  {
    [p.status] + EncodeTouches(p.vertical) + EncodeTouches(p.horizontal)
  }

  function DecodePayload(bytes: seq<uint8>): (p: Payload)
    requires |bytes| == PayloadSize
    ensures p.Valid() && EncodePayload(p) == bytes
  {
    var v := DecodeTouches(bytes[1..17]);
    var h := DecodeTouches(bytes[17..]);
    assert [bytes[0]] + bytes[1..17] + bytes[17..] == bytes;
    Payload(bytes[0], v, h)
  }

  lemma {:induction false} TouchesRoundTrip(ts: seq<TouchData>)
    ensures DecodeTouches(EncodeTouches(ts)) == ts
  {
    if |ts| > 0 {
      var bytes := EncodeTouches(ts);
      assert bytes[4..] == EncodeTouches(ts[1..]);
      TouchesRoundTrip(ts[1..]);
      assert ts == [ts[0]] + ts[1..];
    }
  }

  lemma PayloadRoundTrip(p: Payload)
    requires p.Valid()
    ensures DecodePayload(EncodePayload(p)) == p
  {
    var bytes := EncodePayload(p);
    assert bytes[1..17] == EncodeTouches(p.vertical);
    assert bytes[17..] == EncodeTouches(p.horizontal);
    TouchesRoundTrip(p.vertical);
    TouchesRoundTrip(p.horizontal);
  }

  /**
   The touch-counting loop from `touch_count` onward: it stops at the first
   index whose test finds `horizontal[0]` empty, or at four. The test never
   uses the index.
   */
  function CountTouches(first: TouchData, touchCount: nat): (r: nat)
    requires touchCount <= TouchSlots
    ensures touchCount <= r <= TouchSlots
    decreases TouchSlots - touchCount
  {
    if touchCount == TouchSlots then touchCount
    else if GetLe(first.locationH, first.locationL) == NoTouch then touchCount
    else CountTouches(first, touchCount + 1)
  }

  /** The loop counts nothing or everything: 0 exactly when the first horizontal slot is empty, 4 otherwise. */
  lemma {:induction false} CountTouchesAllOrNothing(first: TouchData, touchCount: nat)
    requires touchCount <= TouchSlots
    ensures CountTouches(first, touchCount) ==
      if GetLe(first.locationH, first.locationL) == NoTouch then touchCount else TouchSlots
    decreases TouchSlots - touchCount
  {
    if touchCount < TouchSlots && GetLe(first.locationH, first.locationL) != NoTouch {
      CountTouchesAllOrNothing(first, touchCount + 1);
    }
  }

  predicate Touched(p: Payload)
    requires p.Valid()
  {
    CountTouches(p.horizontal[0], 0) != 0
  }

  lemma TouchedIffLocationPresent(p: Payload)
    requires p.Valid()
    ensures Touched(p) <==> GetLe(p.horizontal[0].locationH, p.horizontal[0].locationL) != NoTouch
    ensures CountTouches(p.horizontal[0], 0) in {0, TouchSlots}
  {
    CountTouchesAllOrNothing(p.horizontal[0], 0);
  }

  /** `CONSTRAIN_HID_XY`: saturation into the report range. */
  function Constrain(amt: int): (r: int8)
    ensures XyReportMin <= r <= XyReportMax
    ensures XyReportMin <= amt <= XyReportMax ==> r == amt
    ensures amt < XyReportMin ==> r == XyReportMin
    ensures amt > XyReportMax ==> r == XyReportMax
  {
    if amt < XyReportMin then XyReportMin else if amt > XyReportMax then XyReportMax else amt
  }

  /** Saturation keeps the order of its inputs and is idempotent. */
  lemma ConstrainMonotone(a: int, b: int)
    requires a <= b
    ensures Constrain(a) <= Constrain(b)
    ensures Constrain(Constrain(a)) == Constrain(a)
  {
  }

  /** The driver's statics, `false, 0, 0` at start-up. */
  datatype TrillState = TrillState(contact: bool, lastX: uint16, lastY: uint16)

  const InitialState := TrillState(false, 0, 0)

  function PositionX(p: Payload): uint16
    requires p.Valid()
  {
    GetLe(p.horizontal[0].locationH, p.horizontal[0].locationL)
  }

  function PositionY(p: Payload): uint16
    requires p.Valid()
  {
    GetLe(p.vertical[0].locationH, p.vertical[0].locationL)
  }

  /** The update of one successfully read payload. */
  function Track(s: TrillState, report: MouseReport, p: Payload): (r: (MouseReport, TrillState))
    requires p.Valid()
    ensures r.0.buttons == report.buttons && r.0.v == report.v && r.0.h == report.h
    ensures !Touched(p) ==> r.0 == report && r.1 == s.(contact := false)
    ensures Touched(p) ==> r.1 == TrillState(true, PositionX(p), PositionY(p))
    ensures Touched(p) && !s.contact ==> r.0 == report
    ensures Touched(p) && s.contact ==>
      r.0.x == Constrain(PositionX(p) - s.lastX) && r.0.y == Constrain(s.lastY - PositionY(p))
  {
    if CountTouches(p.horizontal[0], 0) != 0 then
      var x := PositionX(p);
      var y := PositionY(p);
      var out := if s.contact then report.(x := Constrain(x - s.lastX), y := Constrain(s.lastY - y)) else report;
      (out, TrillState(true, x, y))
    else
      (report, s.(contact := false))
  }

  /**
   `bela_trill_get_report`: `read` is the payload read at the status register.
   A failed read changes neither the report nor the state.
   */
  function GetReport(s: TrillState, report: MouseReport, read: Reply<seq<uint8>>): (r: (MouseReport, TrillState))
    requires |read.value| == PayloadSize
    ensures !read.Ok() ==> r == (report, s)
    ensures r.0.buttons == report.buttons && r.0.v == report.v && r.0.h == report.h
    ensures read.Ok() && GetLe(read.value[17], read.value[18]) == NoTouch ==>
      r.0 == report && r.1 == s.(contact := false)
    ensures read.Ok() && GetLe(read.value[17], read.value[18]) != NoTouch ==>
      && r.1 == TrillState(true, GetLe(read.value[17], read.value[18]), GetLe(read.value[1], read.value[2]))
      && (!s.contact ==> r.0 == report)
      && (s.contact ==>
            && r.0.x == Constrain(GetLe(read.value[17], read.value[18]) - s.lastX)
            && r.0.y == Constrain(s.lastY - GetLe(read.value[1], read.value[2])))
  {
    if read.Ok() then
      var p := DecodePayload(read.value);
      TouchedIffLocationPresent(p);
      Track(s, report, p)
    else
      (report, s)
  }

  /**
   A run of touch frames, each polled with an empty report: the final state and
   the sum of the x motion reported along the way.
   */
  function Follow(s: TrillState, frames: seq<Payload>): (TrillState, int)
    requires forall i :: 0 <= i < |frames| ==> frames[i].Valid()
    decreases |frames|
  {
    if |frames| == 0 then (s, 0)
    else
      var (report, s') := Track(s, EmptyMouseReport, frames[0]);
      var (final, sum) := Follow(s', frames[1..]);
      (final, report.x + sum)
  }

  /** No step of the run moves further than one report can carry. */
  predicate SmallSteps(start: int, frames: seq<Payload>)
    requires forall i :: 0 <= i < |frames| ==> frames[i].Valid()
  {
    && (|frames| > 0 ==> XyReportMin <= PositionX(frames[0]) - start <= XyReportMax)
    && forall i :: 0 < i < |frames| ==> XyReportMin <= PositionX(frames[i]) - PositionX(frames[i - 1]) <= XyReportMax
  }

  /**
   While a finger stays down and moves by no more than the report range per
   frame, the reported x motion adds up to the distance travelled since the
   position last recorded: nothing is lost or invented by the clamping.
   */
  lemma {:induction false} ContactMotionTelescopes(s: TrillState, frames: seq<Payload>)
    requires s.contact
    requires forall i :: 0 <= i < |frames| ==> frames[i].Valid() && Touched(frames[i])
    requires SmallSteps(s.lastX, frames)
    ensures |frames| > 0 ==> Follow(s, frames).1 == PositionX(frames[|frames| - 1]) - s.lastX
    ensures Follow(s, frames).0.contact
    decreases |frames|
  {
    if |frames| > 0 {
      var s' := Track(s, EmptyMouseReport, frames[0]).1;
      assert SmallSteps(s'.lastX, frames[1..]) by {
        forall i | 0 < i < |frames[1..]|
          ensures XyReportMin <= PositionX(frames[1..][i]) - PositionX(frames[1..][i - 1]) <= XyReportMax
        {
          assert frames[1..][i] == frames[i + 1] && frames[1..][i - 1] == frames[i];
        }
      }
      ContactMotionTelescopes(s', frames[1..]);
    }
  }

  /** The first frame of a contact reports no motion, so a whole contact reports last minus first. */
  lemma NewContactMotion(s: TrillState, frames: seq<Payload>)
    requires !s.contact && |frames| > 0
    requires forall i :: 0 <= i < |frames| ==> frames[i].Valid() && Touched(frames[i])
    requires SmallSteps(PositionX(frames[0]), frames)
    ensures Follow(s, frames).1 == PositionX(frames[|frames| - 1]) - PositionX(frames[0])
  {
    var s' := Track(s, EmptyMouseReport, frames[0]).1;
    assert SmallSteps(s'.lastX, frames[1..]) by {
      forall i | 0 < i < |frames[1..]|
        ensures XyReportMin <= PositionX(frames[1..][i]) - PositionX(frames[1..][i - 1]) <= XyReportMax
      {
        assert frames[1..][i] == frames[i + 1] && frames[1..][i - 1] == frames[i];
      }
    }
    ContactMotionTelescopes(s', frames[1..]);
  }
}

=== FILE: bus.dfy ===
/**
 The I2C transport as the drivers see it. The transport itself is not part of
 this model: every read is an oracle `Reply` (the status the transport returned
 and whatever it left in the destination buffer), and the transactions a driver
 issues are recorded in a trace by the driver modules that need one.
 */
module Bus {

  /** `i2c_status_t`: success, NACK/error or timeout. */
  datatype Status = Success | Error | Timeout

  /** One read transaction as answered by the bus: its status and the buffer contents afterwards. */
  datatype Reply<T> = Reply(status: Status, value: T) {
    predicate Ok() {
      status == Success
    }
  }
}

=== FILE: ctypes.dfy ===
/**
 The fixed-width C integer types the drivers use, and the conversions between
 them written out explicitly (Dafny integers are unbounded).
 */
module CTypes {

  type uint8 = x: int | 0 <= x < 0x100
  type uint16 = x: int | 0 <= x < 0x1_0000
  type int8 = x: int | -0x80 <= x < 0x80
  type int16 = x: int | -0x8000 <= x < 0x8000

  /** Conversion of an `int` to `uint16_t`: reduction modulo 2^16. */
  function ToUint16(x: int): (r: uint16)
    ensures (x - r) % 0x1_0000 == 0
    ensures 0 <= x < 0x1_0000 ==> r == x
  {
    x % 0x1_0000
  }

  /** Adding before or after the conversion to `uint16_t` gives the same value. */
  lemma ToUint16Add(x: int, c: int)
    ensures ToUint16(ToUint16(x) + c) == ToUint16(x + c)
  {
    var q := x / 0x1_0000;
    assert x == q * 0x1_0000 + ToUint16(x);
    assert x + c == q * 0x1_0000 + (ToUint16(x) + c);
  }

  /** Conversion of an `int` to `int16_t` (two's complement wrap-around, as GCC does). */
  function ToInt16(x: int): (r: int16)
    ensures (x - r) % 0x1_0000 == 0
    ensures -0x8000 <= x < 0x8000 ==> r == x
  {
    var u := x % 0x1_0000;
    if u < 0x8000 then u else u - 0x1_0000
  }

  function Abs(x: int): (r: nat)
    ensures r == x || r == -x
  {
    if x < 0 then -x else x
  }

  /** Conversion of a byte to `int8_t` (two's complement, as GCC does). */
  function Int8OfByte(b: bv8): (r: int8)
    ensures (r - b as int) % 0x100 == 0
    ensures b < 0x80 ==> r == b as int
  {
    if b < 0x80 then b as int else b as int - 0x100
  }
}

=== FILE: iqs5xx.dfy ===
/**
 The Azoteq IQS5xx register-session protocol (`azoteq_iqs5xx.c`).

 Every read or write of the controller is followed by an end-of-communication
 session: a one-byte write to register 0xEEEE and a bus stop. Each operation
 here takes the bus's answers to its reads (and the status of its primary
 write) as oracle values and returns the transactions it issued as a trace.
 The end-session write's own status is discarded by every caller, so it is
 not an input.
 */
module Iqs5xx {
  import opened CTypes
  import opened Bus
  import opened Reports
  import opened Iqs5xxWire

  const RegPreviousCycleTime: nat := 0x000C
  const RegNumberOfFingers: nat := 0x0011
  const RegReportRateActive: nat := 0x057A
  const RegReportRateIdleTouch: nat := 0x057C
  const RegReportRateIdle: nat := 0x057E
  const RegReportRateLp1: nat := 0x0580
  const RegReportRateLp2: nat := 0x0582
  const RegSystemConfig1: nat := 0x058F
  const RegSingleFingerGestures: nat := 0x06B7
  const RegEndComms: nat := 0xEEEE

  /** The byte written to end a session ("any data"). */
  const EndByte: bv8 := 1

  /** `pointing_device_i2c_config_t`: the 7-bit bus address and the timeout. */
  datatype Config = Config(address: uint8, timeout: nat)

  /** `address << 1` as passed to the 8-bit device-address parameter of the transport. */
  function Device(cfg: Config): uint8 {
    (cfg.address * 2) % 0x100
  }

  /**
   The gesture configuration block read from and written back to register
   0x06B7. Its C declaration is not part of this model, so its byte layout is
   not modelled: the fields the driver sets are named and every other setting
   is carried unchanged in `otherSettings`.
   */
  datatype GestureConfig = GestureConfig(
    singleTap: bool, twoFingerTap: bool, scroll: bool,
    tapTime: nat, tapDistance: nat, scrollInitialDistance: nat,
    otherSettings: seq<int>)

  datatype Payload = Bytes(data: seq<bv8>) | Gestures(config: GestureConfig)

  /** One bus transaction: a 16-bit-register read or write, or a stop condition. */
  datatype Event = Read(device: uint8, register: nat) | Write(device: uint8, register: nat, payload: Payload) | Stop

  /** A status-returning operation: its status, its output value and the transactions it issued. */
  datatype Outcome<T> = Outcome(status: Status, value: T, trace: seq<Event>)

  // ---------------------------------------------------------------------------
  // Sessions
  // ---------------------------------------------------------------------------

  predicate IsEndCommsWrite(cfg: Config, e: Event) {
    e == Write(Device(cfg), RegEndComms, Bytes([EndByte]))
  }

  function CountEndComms(cfg: Config, trace: seq<Event>): nat {
    if |trace| == 0 then 0
    else CountEndComms(cfg, trace[..|trace| - 1]) + (if IsEndCommsWrite(cfg, trace[|trace| - 1]) then 1 else 0)
  }

  function CountStops(trace: seq<Event>): nat {
    if |trace| == 0 then 0
    else CountStops(trace[..|trace| - 1]) + (if trace[|trace| - 1] == Stop then 1 else 0)
  }

  /** A single session: ends with the end-of-comms write and a stop, neither of which occurs earlier. */
  predicate ClosedSession(cfg: Config, trace: seq<Event>) {
    && |trace| >= 2
    && IsEndCommsWrite(cfg, trace[|trace| - 2])
    && trace[|trace| - 1] == Stop
    && CountEndComms(cfg, trace) == 1
    && CountStops(trace) == 1
  }

  /** No event of `trace` is an end-of-comms write or a stop. */
  predicate Quiet(cfg: Config, trace: seq<Event>) {
    forall i :: 0 <= i < |trace| ==> !IsEndCommsWrite(cfg, trace[i]) && trace[i] != Stop
  }

  lemma {:induction false} QuietCountsZero(cfg: Config, trace: seq<Event>)
    requires Quiet(cfg, trace)
    ensures CountEndComms(cfg, trace) == 0 && CountStops(trace) == 0
  {
    if |trace| > 0 {
      QuietCountsZero(cfg, trace[..|trace| - 1]);
    }
  }

  /** `azoteq_iqs5xx_end_session`. */
  function EndSession(cfg: Config): (trace: seq<Event>)
    ensures ClosedSession(cfg, trace)
    ensures |trace| == 2 && trace[0] == Write(Device(cfg), RegEndComms, Bytes([EndByte])) && trace[1] == Stop
  {
    var w := Write(Device(cfg), RegEndComms, Bytes([EndByte]));
    assert [w, Stop][..1] == [w] && [w][..0] == [];
    assert CountEndComms(cfg, [w]) == 1 && CountStops([w]) == 0;
    [w, Stop]
  }

  /** A primary transaction with no end-of-comms write or stop, followed by the end session, is one closed session. */
  lemma PrimaryThenEnd(cfg: Config, primary: seq<Event>)
    requires Quiet(cfg, primary)
    ensures ClosedSession(cfg, primary + EndSession(cfg))
  {
    QuietCountsZero(cfg, primary);
    var t := primary + EndSession(cfg);
    assert t[..|t| - 1][..|primary|] == primary;
    assert t[..|t| - 1] == primary + [t[|t| - 2]];
  }

  /** Counts of end-of-comms writes and stops add up over concatenated traces. */
  lemma CountsAppend(cfg: Config, a: seq<Event>, b: seq<Event>)
    ensures CountEndComms(cfg, a + b) == CountEndComms(cfg, a) + CountEndComms(cfg, b)
    ensures CountStops(a + b) == CountStops(a) + CountStops(b)
    decreases |b|
  {
    if |b| > 0 {
      assert (a + b)[..|a + b| - 1] == a + b[..|b| - 1];
      CountsAppend(cfg, a, b[..|b| - 1]);
    } else {
      assert a + b == a;
    }
  }

  // ---------------------------------------------------------------------------
  // Report rate
  // ---------------------------------------------------------------------------

  predicate ValidMode(mode: nat) {
    mode <= Lp2
  }

  /** `AZOTEQ_IQS5XX_REG_REPORT_RATE_ACTIVE + (2 * mode)`. */
  function ReportRateRegister(mode: nat): nat
    requires ValidMode(mode)
  {
    RegReportRateActive + 2 * mode
  }

  /** The computed register is exactly the datasheet register of each charging mode, and distinct modes differ. */
  lemma ReportRateRegisters()
    ensures ReportRateRegister(Active) == RegReportRateActive
    ensures ReportRateRegister(IdleTouch) == RegReportRateIdleTouch
    ensures ReportRateRegister(Idle) == RegReportRateIdle
    ensures ReportRateRegister(Lp1) == RegReportRateLp1
    ensures ReportRateRegister(Lp2) == RegReportRateLp2
    ensures forall m, n :: ValidMode(m) && ValidMode(n) && m != n ==> ReportRateRegister(m) != ReportRateRegister(n)
  {
  }

  /**
   `azoteq_iqs5xx_get_report_rate`: `rate` is the caller's buffer. An invalid
   mode is rejected before any bus access.
   */
  function GetReportRate(cfg: Config, mode: nat, rate: HighLow, read: Reply<HighLow>): (o: Outcome<HighLow>)
    ensures !ValidMode(mode) ==> o.status == Error && o.trace == [] && o.value == rate
    ensures ValidMode(mode) ==>
      && o.status == read.status
      && o.value == read.value
      && ClosedSession(cfg, o.trace)
      && |o.trace| == 3
      && o.trace[0] == Read(Device(cfg), ReportRateRegister(mode))
  {
    if !ValidMode(mode) then
      Outcome(Error, rate, [])
    else
      var primary := [Read(Device(cfg), ReportRateRegister(mode))];
      PrimaryThenEnd(cfg, primary);
      Outcome(read.status, read.value, primary + EndSession(cfg))
  }

  /**
   `azoteq_iqs5xx_set_report_rate`: writes `reportRateMs` high byte first. An
   invalid mode is rejected before any bus access.
   */
  function SetReportRate(cfg: Config, reportRateMs: bv16, mode: nat, writeStatus: Status): (o: Outcome<()>)
    ensures !ValidMode(mode) ==> o.status == Error && o.trace == []
    ensures ValidMode(mode) ==>
      && o.status == writeStatus
      && ClosedSession(cfg, o.trace)
      && |o.trace| == 3
      && o.trace[0].Write? && o.trace[0].device == Device(cfg)
      && o.trace[0].register == ReportRateRegister(mode)
      && o.trace[0].payload.Bytes? && |o.trace[0].payload.data| == 2
      && CombineHighLow(HighLow(o.trace[0].payload.data[0], o.trace[0].payload.data[1])) == reportRateMs
  {
    if !ValidMode(mode) then
      Outcome(Error, (), [])
    else
      var rate := SplitHighLow(reportRateMs);
      var primary := [Write(Device(cfg), ReportRateRegister(mode), Bytes([rate.h, rate.l]))];
      PrimaryThenEnd(cfg, primary);
      Outcome(writeStatus, (), primary + EndSession(cfg))
  }

  // ---------------------------------------------------------------------------
  // Read-modify-write configuration
  // ---------------------------------------------------------------------------

  /** The three bits `set_event_mode` turns on. */
  function EnableEvents(c: SystemConfig1): SystemConfig1 {
    c.(eventMode := true, touchEvent := true, tpEvent := true)
  }

  /** Turning on the three event bits of the read byte is OR-ing 0x45 into it. */
  lemma EnableEventsIsOr(b: bv8)
    ensures EncodeSystemConfig1(EnableEvents(DecodeSystemConfig1(b))) == b | 0x45
  {
  }

  /**
   `azoteq_iqs5xx_set_event_mode`: read system config 1, and only if that read
   succeeded write it back with the event bits set. `enabled` is not used.
   */
  function SetEventMode(cfg: Config, enabled: bool, read: Reply<bv8>): (trace: seq<Event>)
    ensures ClosedSession(cfg, trace)
    ensures trace[0] == Read(Device(cfg), RegSystemConfig1)
    ensures !read.Ok() ==> |trace| == 3
    ensures read.Ok() ==>
      && |trace| == 4
      && trace[1] == Write(Device(cfg), RegSystemConfig1, Bytes([read.value | 0x45]))
  {
    EnableEventsIsOr(read.value);
    var written := EncodeSystemConfig1(EnableEvents(DecodeSystemConfig1(read.value)));
    var primary := [Read(Device(cfg), RegSystemConfig1)]
      + (if read.Ok() then [Write(Device(cfg), RegSystemConfig1, Bytes([written]))] else []);
    PrimaryThenEnd(cfg, primary);
    primary + EndSession(cfg)
  }

  /** The written byte keeps every bit that was read and sets bits 0, 2 and 6. */
  lemma SetEventModeKeepsOtherBits(cfg: Config, enabled: bool, read: Reply<bv8>)
    requires read.Ok()
    ensures var w := SetEventMode(cfg, enabled, read)[1].payload.data[0];
      && w & read.value == read.value
      && w & 0x45 == 0x45
      && w & 0xBA == read.value & 0xBA
  {
  }

  /** `enabled` has no effect. */
  lemma SetEventModeIgnoresEnabled(cfg: Config, read: Reply<bv8>)
    ensures SetEventMode(cfg, true, read) == SetEventMode(cfg, false, read)
  {
  }

  /** The settings `gesture_config` applies to the block it read. */
  function TuneGestures(c: GestureConfig): GestureConfig {
    c.(singleTap := true, twoFingerTap := true, scroll := true,
       tapTime := 500, tapDistance := 100, scrollInitialDistance := 5)
  }

  /**
   `azoteq_iqs5xx_gesture_config`: read the gesture block, and only if that
   read succeeded write it back with single tap, two-finger tap and scroll
   enabled and the tap and scroll thresholds set.
   */
  function ConfigureGestures(cfg: Config, read: Reply<GestureConfig>): (trace: seq<Event>)
    ensures ClosedSession(cfg, trace)
    ensures trace[0] == Read(Device(cfg), RegSingleFingerGestures)
    ensures !read.Ok() ==> |trace| == 3
    ensures read.Ok() ==>
      && |trace| == 4
      && trace[1].Write? && trace[1].device == Device(cfg) && trace[1].register == RegSingleFingerGestures && trace[1].payload.Gestures?
      && var c := trace[1].payload.config;
      && c.singleTap && c.twoFingerTap && c.scroll
      && c.tapTime == 500 && c.tapDistance == 100 && c.scrollInitialDistance == 5
      && c.otherSettings == read.value.otherSettings
  {
    var primary := [Read(Device(cfg), RegSingleFingerGestures)]
      + (if read.Ok() then [Write(Device(cfg), RegSingleFingerGestures, Gestures(TuneGestures(read.value)))] else []);
    PrimaryThenEnd(cfg, primary);
    primary + EndSession(cfg)
  }

  /**
   `azoteq_iqs5xx_init`: report rate 5 ms in ACTIVE mode, event mode, gesture
   configuration, each its own session. The event-mode and gesture sessions
   are 4 events long when their read succeeds (read, write back, end) and 3
   otherwise.
   */
  function Init(cfg: Config, rateWrite: Status, eventRead: Reply<bv8>, gestureRead: Reply<GestureConfig>)
    : (trace: seq<Event>)
    ensures CountEndComms(cfg, trace) == 3 && CountStops(trace) == 3
    ensures var n := if eventRead.Ok() then 4 else 3;
      var m := if gestureRead.Ok() then 4 else 3;
      && |trace| == 3 + n + m
      && ClosedSession(cfg, trace[..3])
      && ClosedSession(cfg, trace[3..3 + n])
      && ClosedSession(cfg, trace[3 + n..])
      && trace[0] == Write(Device(cfg), RegReportRateActive, Bytes([0, 5]))
      && trace[3] == Read(Device(cfg), RegSystemConfig1)
      && (eventRead.Ok() ==> trace[4] == Write(Device(cfg), RegSystemConfig1, Bytes([eventRead.value | 0x45])))
      && trace[3 + n] == Read(Device(cfg), RegSingleFingerGestures)
      && (gestureRead.Ok() ==>
            trace[4 + n] == Write(Device(cfg), RegSingleFingerGestures, Gestures(TuneGestures(gestureRead.value))))
      && trace[..3] == SetReportRate(cfg, 5, Active, rateWrite).trace
      && trace[3..3 + n] == SetEventMode(cfg, true, eventRead)
      && trace[3 + n..] == ConfigureGestures(cfg, gestureRead)
  {
    var rate := SetReportRate(cfg, 5, Active, rateWrite).trace;
    var events := SetEventMode(cfg, true, eventRead);
    var gestures := ConfigureGestures(cfg, gestureRead);
    CountsAppend(cfg, rate, events);
    CountsAppend(cfg, rate + events, gestures);
    var trace := rate + events + gestures;
    assert trace[..3] == rate;
    assert trace[3..3 + |events|] == events;
    assert trace[3 + |events|..] == gestures;
    trace
  }

  // ---------------------------------------------------------------------------
  // Polling
  // ---------------------------------------------------------------------------

  /** `azoteq_iqs5xx_get_base_data`: the 10-byte frame at register 0x000C, decoded. */
  function GetBaseData(cfg: Config, read: Reply<seq<bv8>>): (o: Outcome<BaseData>)
    requires |read.value| == BaseDataSize
    ensures o.status == read.status
    ensures o.value.Valid() && EncodeBaseData(o.value) == read.value
    ensures ClosedSession(cfg, o.trace) && |o.trace| == 3
    ensures o.trace[0] == Read(Device(cfg), RegPreviousCycleTime)
  {
    var primary := [Read(Device(cfg), RegPreviousCycleTime)];
    PrimaryThenEnd(cfg, primary);
    Outcome(read.status, DecodeBaseData(read.value), primary + EndSession(cfg))
  }

  /** `azoteq_iqs5xx_get_report_data`: the 5-byte frame at register 0x0011, decoded. */
  function GetReportData(cfg: Config, read: Reply<seq<bv8>>): (o: Outcome<ReportData>)
    requires |read.value| == ReportDataSize
    ensures o.status == read.status
    ensures EncodeReportData(o.value) == read.value
    ensures ClosedSession(cfg, o.trace) && |o.trace| == 3
    ensures o.trace[0] == Read(Device(cfg), RegNumberOfFingers)
  {
    var primary := [Read(Device(cfg), RegNumberOfFingers)];
    PrimaryThenEnd(cfg, primary);
    Outcome(read.status, DecodeReportData(read.value), primary + EndSession(cfg))
  }

  /** The mouse report built from a successfully read base-data frame (8-bit report build). */
  function ReportFromBaseData(d: BaseData): MouseReport {
    var buttons := if d.gestureEvents0.singleTap then HandleButtons(0, true, 0) else 0;
    var buttons := if d.gestureEvents1.twoFingerTap then HandleButtons(buttons, true, 1) else buttons;
    if d.gestureEvents1.scroll then
      MouseReport(buttons, 0, 0, Int8OfByte(d.x.l), 0)
    else if d.numberOfFingers != 0 then
      MouseReport(buttons, Int8OfByte(d.x.l), Int8OfByte(d.y.l), 0, 0)
    else
      MouseReport(buttons, 0, 0, 0, 0)
  }

  /**
   `azoteq_iqs5xx_get_report` over the raw base-data frame: byte 1 is gesture
   events 0, byte 2 gesture events 1, byte 5 the finger count, bytes 7 and 9
   the low bytes of the relative x and y.
   */
  function GetReport(cfg: Config, read: Reply<seq<bv8>>): (r: (MouseReport, seq<Event>))
    requires |read.value| == BaseDataSize
    ensures ClosedSession(cfg, r.1)
    ensures |r.1| == 3 && r.1[0] == Read(Device(cfg), RegPreviousCycleTime)
    ensures r.1 == GetBaseData(cfg, read).trace
    ensures !read.Ok() ==> r.0 == EmptyMouseReport
    ensures r.0.h == 0
    ensures read.Ok() ==>
      && ButtonBit(r.0.buttons, 0) == (read.value[1] & 0x01 != 0)
      && ButtonBit(r.0.buttons, 1) == (read.value[2] & 0x01 != 0)
      && forall k :: 2 <= k < 8 ==> !ButtonBit(r.0.buttons, k)
    ensures read.Ok() && read.value[2] & 0x02 != 0 ==>
      r.0.v == Int8OfByte(read.value[7]) && r.0.x == 0 && r.0.y == 0
    ensures read.Ok() && read.value[2] & 0x02 == 0 && read.value[5] != 0 ==>
      r.0.x == Int8OfByte(read.value[7]) && r.0.y == Int8OfByte(read.value[9]) && r.0.v == 0
    ensures read.Ok() && read.value[2] & 0x02 == 0 && read.value[5] == 0 ==>
      r.0.x == 0 && r.0.y == 0 && r.0.v == 0
  {
    var o := GetBaseData(cfg, read);
    var report := if o.status == Success then ReportFromBaseData(o.value) else EmptyMouseReport;
    (report, o.trace)
  }
}

=== FILE: iqs5xx_wire.dfy ===
/**
 Wire layouts of the Azoteq IQS5xx registers the driver reads and writes
 (`azoteq_iqs5xx.h`). The header declares them as packed bit-field structs;
 here each is a record with an explicit decode from, and encode to, its bytes.
 Bit-fields are allocated from the least significant bit upwards, first
 declared field first, as GCC does on little-endian targets.
 */
module Iqs5xxWire {

  // `azoteq_charging_modes_t`
  const Active: nat := 0
  const IdleTouch: nat := 1
  const Idle: nat := 2
  const Lp1: nat := 3
  const Lp2: nat := 4

  /** `mask` if `on`, otherwise no bit. */
  function Flag(on: bool, mask: bv8): bv8 {
    if on then mask else 0
  }

  // ---------------------------------------------------------------------------
  // Two-byte big-endian values
  // ---------------------------------------------------------------------------

  /** `azoteq_iqs5xx_report_rate_t` and `azoteq_iqs5xx_relative_xy_t`: high byte first. */
  datatype HighLow = HighLow(h: bv8, l: bv8)

  /** `AZOTEQ_IQS5XX_COMBINE_H_L_BYTES(h, l)`: `(h << 8) | l`. */
  function CombineHighLow(v: HighLow): (r: bv16)
    ensures (r >> 8) as bv8 == v.h && (r & 0xFF) as bv8 == v.l
  {
    ((v.h as bv16) << 8) | (v.l as bv16)
  }

  /** The split `set_report_rate` performs: `h = (ms >> 8) & 0xFF`, `l = ms & 0xFF`. */
  function SplitHighLow(ms: bv16): (r: HighLow)
    ensures CombineHighLow(r) == ms
  {
    HighLow(((ms >> 8) & 0xFF) as bv8, (ms & 0xFF) as bv8)
  }

  /** Splitting a combined value gives the two bytes back. */
  lemma SplitCombine(v: HighLow)
    ensures SplitHighLow(CombineHighLow(v)) == v
  {
  }

  // ---------------------------------------------------------------------------
  // One-byte bit-field registers
  // ---------------------------------------------------------------------------

  /** `azoteq_iqs5xx_gesture_events_0_t`: bits 0-5 are gesture flags, bits 6-7 unused. */
  datatype GestureEvents0 = GestureEvents0(
    singleTap: bool, pressAndHold: bool, swipeXNeg: bool, swipeXPos: bool,
    swipeYPos: bool, swipeYNeg: bool, unused: bv8)
  {
    predicate Valid() {
      unused < 4
    }
  }

  function EncodeGestureEvents0(g: GestureEvents0): (b: bv8)
    requires g.Valid()
    ensures (b & 0x01 != 0) == g.singleTap && (b & 0x02 != 0) == g.pressAndHold
    ensures (b & 0x04 != 0) == g.swipeXNeg && (b & 0x08 != 0) == g.swipeXPos
    ensures (b & 0x10 != 0) == g.swipeYPos && (b & 0x20 != 0) == g.swipeYNeg
    ensures b >> 6 == g.unused
  {
    Flag(g.singleTap, 0x01) | Flag(g.pressAndHold, 0x02) | Flag(g.swipeXNeg, 0x04)
    | Flag(g.swipeXPos, 0x08) | Flag(g.swipeYPos, 0x10) | Flag(g.swipeYNeg, 0x20) | (g.unused << 6)
  }

  function DecodeGestureEvents0(b: bv8): (g: GestureEvents0)
    ensures g.Valid() && EncodeGestureEvents0(g) == b
  {
    GestureEvents0(b & 0x01 != 0, b & 0x02 != 0, b & 0x04 != 0, b & 0x08 != 0,
                   b & 0x10 != 0, b & 0x20 != 0, b >> 6)
  }

  lemma GestureEvents0RoundTrip(g: GestureEvents0)
    requires g.Valid()
    ensures DecodeGestureEvents0(EncodeGestureEvents0(g)) == g
  {
  }

  /** `azoteq_iqs5xx_gesture_events_1_t`: bits 0-2 are gesture flags, bits 3-7 unused. */
  datatype GestureEvents1 = GestureEvents1(twoFingerTap: bool, scroll: bool, zoom: bool, unused: bv8) {
    predicate Valid() {
      unused < 32
    }
  }

  function EncodeGestureEvents1(g: GestureEvents1): (b: bv8)
    requires g.Valid()
    ensures (b & 0x01 != 0) == g.twoFingerTap && (b & 0x02 != 0) == g.scroll && (b & 0x04 != 0) == g.zoom
    ensures b >> 3 == g.unused
  {
    Flag(g.twoFingerTap, 0x01) | Flag(g.scroll, 0x02) | Flag(g.zoom, 0x04) | (g.unused << 3)
  }

  function DecodeGestureEvents1(b: bv8): (g: GestureEvents1)
    ensures g.Valid() && EncodeGestureEvents1(g) == b
  {
    GestureEvents1(b & 0x01 != 0, b & 0x02 != 0, b & 0x04 != 0, b >> 3)
  }

  lemma GestureEvents1RoundTrip(g: GestureEvents1)
    requires g.Valid()
    ensures DecodeGestureEvents1(EncodeGestureEvents1(g)) == g
  {
  }

  /** `azoteq_iqs5xx_system_info_0_t`: the charging mode in bits 0-2, then five flags. */
  datatype SystemInfo0 = SystemInfo0(
    chargingMode: bv8, atiError: bool, reatiOccurred: bool, alpAtiError: bool,
    alpReatiOccurred: bool, showReset: bool)
  {
    predicate Valid() {
      chargingMode < 8
    }
  }

  function EncodeSystemInfo0(s: SystemInfo0): (b: bv8)
    requires s.Valid()
    ensures b & 0x07 == s.chargingMode
    ensures (b & 0x08 != 0) == s.atiError && (b & 0x10 != 0) == s.reatiOccurred
    ensures (b & 0x20 != 0) == s.alpAtiError && (b & 0x40 != 0) == s.alpReatiOccurred
    ensures (b & 0x80 != 0) == s.showReset
  {
    s.chargingMode | Flag(s.atiError, 0x08) | Flag(s.reatiOccurred, 0x10) | Flag(s.alpAtiError, 0x20)
    | Flag(s.alpReatiOccurred, 0x40) | Flag(s.showReset, 0x80)
  }

  function DecodeSystemInfo0(b: bv8): (s: SystemInfo0)
    ensures s.Valid() && EncodeSystemInfo0(s) == b
  {
    SystemInfo0(b & 0x07, b & 0x08 != 0, b & 0x10 != 0, b & 0x20 != 0, b & 0x40 != 0, b & 0x80 != 0)
  }

  lemma SystemInfo0RoundTrip(s: SystemInfo0)
    requires s.Valid()
    ensures DecodeSystemInfo0(EncodeSystemInfo0(s)) == s
  {
  }

  /** `azoteq_iqs5xx_system_info_1_t`: six flags in bits 0-5, bits 6-7 unused. */
  datatype SystemInfo1 = SystemInfo1(
    tpMovement: bool, palmDetect: bool, tooManyFingers: bool, rrMissed: bool,
    snapToggle: bool, switchState: bool, unused: bv8)
  {
    predicate Valid() {
      unused < 4
    }
  }

  function EncodeSystemInfo1(s: SystemInfo1): (b: bv8)
    requires s.Valid()
    ensures (b & 0x01 != 0) == s.tpMovement && (b & 0x02 != 0) == s.palmDetect
    ensures (b & 0x04 != 0) == s.tooManyFingers && (b & 0x08 != 0) == s.rrMissed
    ensures (b & 0x10 != 0) == s.snapToggle && (b & 0x20 != 0) == s.switchState
    ensures b >> 6 == s.unused
  {
    Flag(s.tpMovement, 0x01) | Flag(s.palmDetect, 0x02) | Flag(s.tooManyFingers, 0x04)
    | Flag(s.rrMissed, 0x08) | Flag(s.snapToggle, 0x10) | Flag(s.switchState, 0x20) | (s.unused << 6)
  }

  function DecodeSystemInfo1(b: bv8): (s: SystemInfo1)
    ensures s.Valid() && EncodeSystemInfo1(s) == b
  {
    SystemInfo1(b & 0x01 != 0, b & 0x02 != 0, b & 0x04 != 0, b & 0x08 != 0, b & 0x10 != 0, b & 0x20 != 0, b >> 6)
  }

  lemma SystemInfo1RoundTrip(s: SystemInfo1)
    requires s.Valid()
    ensures DecodeSystemInfo1(EncodeSystemInfo1(s)) == s
  {
  }

  /** `azoteq_iqs5xx_system_config_1_t`: eight flags, bit 0 first. */
  datatype SystemConfig1 = SystemConfig1(
    eventMode: bool, gestureEvent: bool, tpEvent: bool, reatiEvent: bool,
    alpProxEvent: bool, snapEvent: bool, touchEvent: bool, proxEvent: bool)

  function EncodeSystemConfig1(c: SystemConfig1): (b: bv8)
    ensures (b & 0x01 != 0) == c.eventMode && (b & 0x02 != 0) == c.gestureEvent
    ensures (b & 0x04 != 0) == c.tpEvent && (b & 0x08 != 0) == c.reatiEvent
    ensures (b & 0x10 != 0) == c.alpProxEvent && (b & 0x20 != 0) == c.snapEvent
    ensures (b & 0x40 != 0) == c.touchEvent && (b & 0x80 != 0) == c.proxEvent
  {
    Flag(c.eventMode, 0x01) | Flag(c.gestureEvent, 0x02) | Flag(c.tpEvent, 0x04) | Flag(c.reatiEvent, 0x08)
    | Flag(c.alpProxEvent, 0x10) | Flag(c.snapEvent, 0x20) | Flag(c.touchEvent, 0x40) | Flag(c.proxEvent, 0x80)
  }

  function DecodeSystemConfig1(b: bv8): (c: SystemConfig1)
    ensures EncodeSystemConfig1(c) == b
  {
    SystemConfig1(b & 0x01 != 0, b & 0x02 != 0, b & 0x04 != 0, b & 0x08 != 0,
                  b & 0x10 != 0, b & 0x20 != 0, b & 0x40 != 0, b & 0x80 != 0)
  }

  lemma SystemConfig1RoundTrip(c: SystemConfig1)
    ensures DecodeSystemConfig1(EncodeSystemConfig1(c)) == c
  {
  }

  // ---------------------------------------------------------------------------
  // Multi-byte frames
  // ---------------------------------------------------------------------------

  /** `azoteq_iqs5xx_base_data_t`, the 10-byte frame starting at register 0x000C. */
  datatype BaseData = BaseData(
    previousCycleTime: bv8,
    gestureEvents0: GestureEvents0,
    gestureEvents1: GestureEvents1,
    systemInfo0: SystemInfo0,
    systemInfo1: SystemInfo1,
    numberOfFingers: bv8,
    x: HighLow,
    y: HighLow)
  {
    predicate Valid() {
      gestureEvents0.Valid() && gestureEvents1.Valid() && systemInfo0.Valid() && systemInfo1.Valid()
    }
  }

  const BaseDataSize: nat := 10

  function EncodeBaseData(d: BaseData): (bytes: seq<bv8>)
    requires d.Valid()
    ensures |bytes| == BaseDataSize
    ensures bytes[0] == d.previousCycleTime && bytes[5] == d.numberOfFingers
    ensures bytes[1] == EncodeGestureEvents0(d.gestureEvents0) && bytes[2] == EncodeGestureEvents1(d.gestureEvents1)
    ensures bytes[3] == EncodeSystemInfo0(d.systemInfo0) && bytes[4] == EncodeSystemInfo1(d.systemInfo1)
    ensures bytes[6] == d.x.h && bytes[7] == d.x.l && bytes[8] == d.y.h && bytes[9] == d.y.l
  {
    [d.previousCycleTime,
     EncodeGestureEvents0(d.gestureEvents0), EncodeGestureEvents1(d.gestureEvents1),
     EncodeSystemInfo0(d.systemInfo0), EncodeSystemInfo1(d.systemInfo1),
     d.numberOfFingers, d.x.h, d.x.l, d.y.h, d.y.l]
  }

  function DecodeBaseData(bytes: seq<bv8>): (d: BaseData)
    requires |bytes| == BaseDataSize
    ensures d.Valid() && EncodeBaseData(d) == bytes
  {
    BaseData(bytes[0], DecodeGestureEvents0(bytes[1]), DecodeGestureEvents1(bytes[2]),
             DecodeSystemInfo0(bytes[3]), DecodeSystemInfo1(bytes[4]), bytes[5],
             HighLow(bytes[6], bytes[7]), HighLow(bytes[8], bytes[9]))
  }

  lemma BaseDataRoundTrip(d: BaseData)
    requires d.Valid()
    ensures DecodeBaseData(EncodeBaseData(d)) == d
  {
    GestureEvents0RoundTrip(d.gestureEvents0);
    GestureEvents1RoundTrip(d.gestureEvents1);
    SystemInfo0RoundTrip(d.systemInfo0);
    SystemInfo1RoundTrip(d.systemInfo1);
  }

  /** `azoteq_iqs5xx_report_data_t`, the 5-byte frame starting at register 0x0011. */
  datatype ReportData = ReportData(numberOfFingers: bv8, x: HighLow, y: HighLow)

  const ReportDataSize: nat := 5

  function EncodeReportData(d: ReportData): (bytes: seq<bv8>)
    ensures |bytes| == ReportDataSize
    ensures bytes[0] == d.numberOfFingers
    ensures bytes[1] == d.x.h && bytes[2] == d.x.l && bytes[3] == d.y.h && bytes[4] == d.y.l
  {
    [d.numberOfFingers, d.x.h, d.x.l, d.y.h, d.y.l]
  }

  function DecodeReportData(bytes: seq<bv8>): (d: ReportData)
    requires |bytes| == ReportDataSize
    ensures EncodeReportData(d) == bytes
  {
    ReportData(bytes[0], HighLow(bytes[1], bytes[2]), HighLow(bytes[3], bytes[4]))
  }

  lemma ReportDataRoundTrip(d: ReportData)
    ensures DecodeReportData(EncodeReportData(d)) == d
  {
  }
}

=== FILE: maxtouch_messages.dfy ===
/**
 maXTouch message decoding (`maxtouch_get_report`).

 Each poll reads the T44 message count and then that many messages from the
 T5 message processor. A message whose report ID lies in the T100 finger
 range updates one finger of the digitizer report; every other message is
 ignored. The status of each message read is not checked: whatever the
 transport left in the (zero-initialised) message buffer is decoded.

 The T100 touch event codes are those of the maXTouch T100 message format
 (`maxtouch.h` is not part of this model).
 */
module MaxTouchMessages {
  import opened CTypes
  import opened Bus
  import opened Reports
  import opened MaxTouchObjects

  // T100 touch events: the low nibble of the first message data byte.
  const NoEvent := 0
  const Move := 1
  const Unsup := 2
  const Sup := 3
  const Down := 4
  const Up := 5
  const UnsupSup := 6
  const UnsupUp := 7
  const DownSup := 8
  const DownUp := 9

  /** The part of `mxt_message` the decoder reads: the report ID and data bytes 0 to 4. */
  datatype Message = Message(reportId: uint8, data0: uint8, xLsb: uint8, xMsb: uint8, yLsb: uint8, yMsb: uint8)

  /** The zero-initialised message buffer (`mxt_message message = {}`). */
  const EmptyMessage := Message(0, 0, 0, 0, 0, 0)

  function EventOf(m: Message): int {
    m.data0 % 0x10
  }

  /** `data[1] | (data[2] << 8)` and its `y` counterpart: little-endian 16-bit positions. */
  function LittleEndian16(lsb: uint8, msb: uint8): (r: uint16)
    ensures r % 0x100 == lsb && r / 0x100 == msb
  {
    lsb + msb * 0x100
  }

  /** The report ID lies in `[subsequent[0], subsequent[num_reports - 1]]`. */
  predicate InFingerRange(reg: Registry, id: int)
    requires reg.Wf()
  {
    && reg.t100NumReports > 0
    && reg.t100SubsequentReportIds[0] <= id <= reg.t100SubsequentReportIds[reg.t100NumReports - 1]
  }

  /** A report ID inside the finger range names a finger below `num_reports`. */
  lemma ContactIdInRange(reg: Registry, id: uint8)
    requires reg.Wf()
    requires InFingerRange(reg, id)
    ensures 0 <= id - reg.t100SubsequentReportIds[0] < reg.t100NumReports
  {
    var n := reg.t100NumReports;
    var base := reg.t100FirstReportId + 2;
    assert reg.t100SubsequentReportIds[0] == ToUint16(base);
    assert reg.t100SubsequentReportIds[n - 1] == ToUint16(base + n - 1);
  }

  /** The finger update of one T100 message. */
  function UpdateFinger(f: Finger, m: Message): (r: Finger)
    ensures EventOf(m) == Down ==> r.tip
    ensures EventOf(m) in {Up, Unsup, DownUp} ==> !r.tip
    ensures EventOf(m) !in {Down, Up, Unsup, DownUp} ==> r.tip == f.tip
    ensures r.confidence <==> EventOf(m) != Sup && EventOf(m) != DownSup
    ensures EventOf(m) == Up ==> r.x == f.x && r.y == f.y
    ensures EventOf(m) != Up ==> r.x == LittleEndian16(m.xLsb, m.xMsb) && r.y == LittleEndian16(m.yLsb, m.yMsb)
  {
    var event := EventOf(m);
    var tip := if event == Down then true
               else if event == Up || event == Unsup || event == DownUp then false
               else f.tip;
    var confidence := !(event == Sup || event == DownSup);
    if event != Up then
      Finger(tip, confidence, LittleEndian16(m.xLsb, m.xMsb), LittleEndian16(m.yLsb, m.yMsb))
    else
      Finger(tip, confidence, f.x, f.y)
  }

  /** Message `m` addresses finger `k`: not the first T100 ID, inside the finger range, and `k` away from its start. */
  predicate Addresses(reg: Registry, m: Message, k: int)
    requires reg.Wf()
  {
    && m.reportId != reg.t100FirstReportId
    && InFingerRange(reg, m.reportId)
    && m.reportId - reg.t100SubsequentReportIds[0] == k
  }

  /** The finger-range lookup reads `subsequent[num_reports - 1]`, so it needs a non-empty range. */
  predicate CanDispatch(reg: Registry, m: Message) {
    m.reportId == reg.t100FirstReportId || reg.t100NumReports > 0
  }

  /**
   One iteration of the message loop. Only the finger `report_id - subsequent[0]`
   can change, and only when the ID is not the first T100 ID and lies in the
   finger range.
   */
  function ApplyMessage(reg: Registry, report: DigitizerReport, m: Message): (r: DigitizerReport)
    requires reg.Wf() && |report.fingers| == FingerCount
    requires CanDispatch(reg, m)
    ensures |r.fingers| == FingerCount
    ensures r.button1 == report.button1 && r.button2 == report.button2 && r.button3 == report.button3
    ensures m.reportId == reg.t100FirstReportId || !InFingerRange(reg, m.reportId) ==> r == report
    ensures m.reportId != reg.t100FirstReportId && InFingerRange(reg, m.reportId) ==>
      var c := m.reportId - reg.t100SubsequentReportIds[0];
      && 0 <= c < reg.t100NumReports
      && r.fingers[c] == UpdateFinger(report.fingers[c], m)
      && forall k :: 0 <= k < FingerCount && k != c ==> r.fingers[k] == report.fingers[k]
  {
    if m.reportId == reg.t100FirstReportId then
      report
    else if InFingerRange(reg, m.reportId) then
      ContactIdInRange(reg, m.reportId);
      var c := m.reportId - reg.t100SubsequentReportIds[0];
      report.(fingers := report.fingers[c := UpdateFinger(report.fingers[c], m)])
    else
      report
  }

  /** Finger `k` after the messages `ms`: every message addressing it applied in queue order, the others skipped. */
  function FingerAfter(reg: Registry, f: Finger, ms: seq<Message>, k: int): Finger
    requires reg.Wf()
    decreases |ms|
  {
    if |ms| == 0 then f
    else FingerAfter(reg, if Addresses(reg, ms[0], k) then UpdateFinger(f, ms[0]) else f, ms[1..], k)
  }

  /** The message loop over the messages read, in queue order. */
  function ApplyMessages(reg: Registry, report: DigitizerReport, ms: seq<Message>): (r: DigitizerReport)
    requires reg.Wf() && |report.fingers| == FingerCount
    requires forall i :: 0 <= i < |ms| ==> CanDispatch(reg, ms[i])
    ensures |r.fingers| == FingerCount
    ensures r.button1 == report.button1 && r.button2 == report.button2 && r.button3 == report.button3
    ensures forall k :: reg.t100NumReports <= k < FingerCount ==> r.fingers[k] == report.fingers[k]
    ensures forall k :: 0 <= k < FingerCount && (forall i :: 0 <= i < |ms| ==> !Addresses(reg, ms[i], k)) ==>
      r.fingers[k] == report.fingers[k]
    ensures (forall i :: 0 <= i < |ms| ==>
               ms[i].reportId == reg.t100FirstReportId || !InFingerRange(reg, ms[i].reportId)) ==> r == report
    ensures forall k :: 0 <= k < FingerCount ==> r.fingers[k] == FingerAfter(reg, report.fingers[k], ms, k)
    decreases |ms|
  {
    if |ms| == 0 then report
    else
      var next := ApplyMessage(reg, report, ms[0]);
      assert forall k :: 0 <= k < FingerCount ==>
        next.fingers[k] == if Addresses(reg, ms[0], k) then UpdateFinger(report.fingers[k], ms[0]) else report.fingers[k];
      ApplyMessages(reg, next, ms[1..])
  }

  /** The buffer contents of each message read, whatever its status. */
  function Buffers(replies: seq<Reply<Message>>): (ms: seq<Message>)
    ensures |ms| == |replies|
    ensures forall i :: 0 <= i < |replies| ==> ms[i] == replies[i].value
  {
    seq(|replies|, i requires 0 <= i < |replies| => replies[i].value)
  }

  /**
   `maxtouch_get_report`: `count` is the T44 read and `messages` the T5 reads
   that follow it (one per counted message).
   */
  function GetReport(reg: Registry, report: DigitizerReport, count: Reply<uint8>, messages: seq<Reply<Message>>)
    : (r: DigitizerReport)
    requires reg.Wf() && |report.fingers| == FingerCount
    requires reg.t44MessageCount != 0 && count.Ok() ==> |messages| == count.value
    requires reg.t44MessageCount != 0 && count.Ok() ==>
      forall i :: 0 <= i < |messages| ==> CanDispatch(reg, messages[i].value)
    ensures reg.t44MessageCount == 0 ==> r == report
    ensures !count.Ok() ==> r == report
    ensures |r.fingers| == FingerCount
    ensures r.button1 == report.button1 && r.button2 == report.button2 && r.button3 == report.button3
    ensures forall k :: reg.t100NumReports <= k < FingerCount ==> r.fingers[k] == report.fingers[k]
    ensures reg.t44MessageCount != 0 && count.Ok() && (forall i :: 0 <= i < |messages| ==>
      messages[i].value.reportId == reg.t100FirstReportId || !InFingerRange(reg, messages[i].value.reportId)) ==>
      r == report
    ensures reg.t44MessageCount != 0 && count.Ok() ==>
      forall k :: 0 <= k < FingerCount ==> r.fingers[k] == FingerAfter(reg, report.fingers[k], Buffers(messages), k)
  {
    if reg.t44MessageCount != 0 && count.Ok() then
      ApplyMessages(reg, report, Buffers(messages))
    else
      report
  }

  /**
   The status of each message read is never looked at: two runs whose message
   buffers hold the same bytes give the same report, whether or not each read
   reported success.
   */
  lemma GetReportIgnoresReadStatus(reg: Registry, report: DigitizerReport, count: Reply<uint8>,
                                   messages: seq<Reply<Message>>, others: seq<Reply<Message>>)
    requires reg.Wf() && |report.fingers| == FingerCount
    requires reg.t44MessageCount != 0 && count.Ok() ==> |messages| == count.value
    requires reg.t44MessageCount != 0 && count.Ok() ==>
      forall i :: 0 <= i < |messages| ==> CanDispatch(reg, messages[i].value)
    requires |others| == |messages|
    requires forall i :: 0 <= i < |messages| ==> others[i].value == messages[i].value
    ensures GetReport(reg, report, count, messages) == GetReport(reg, report, count, others)
  {
    assert Buffers(messages) == Buffers(others);
  }

  /**
   A DOWN followed by an UP for the same contact: the tip goes 1 then 0, and
   the UP keeps the position the DOWN reported.
   */
  lemma DownThenUp(reg: Registry, report: DigitizerReport, down: Message, up: Message)
    requires reg.Wf() && |report.fingers| == FingerCount && reg.t100NumReports > 0
    requires down.reportId == up.reportId && down.reportId != reg.t100FirstReportId
    requires InFingerRange(reg, down.reportId)
    requires EventOf(down) == Down && EventOf(up) == Up
    ensures var c := down.reportId - reg.t100SubsequentReportIds[0];
      var afterDown := ApplyMessage(reg, report, down);
      var afterUp := ApplyMessages(reg, report, [down, up]);
      && 0 <= c < FingerCount
      && afterDown.fingers[c].tip
      && !afterUp.fingers[c].tip
      && afterUp.fingers[c].x == afterDown.fingers[c].x == LittleEndian16(down.xLsb, down.xMsb)
      && afterUp.fingers[c].y == afterDown.fingers[c].y == LittleEndian16(down.yLsb, down.yMsb)
  {
    var afterDown := ApplyMessage(reg, report, down);
    assert [down, up][1..] == [up];
    assert ApplyMessages(reg, afterDown, [up]) == ApplyMessage(reg, afterDown, up);
  }

  /** A failed read that leaves the zeroed buffer untouched yields a message no finger responds to. */
  lemma EmptyMessageIgnored(reg: Registry, report: DigitizerReport)
    requires reg.Wf() && |report.fingers| == FingerCount && reg.t100NumReports > 0
    requires reg.t100FirstReportId != 0
    requires reg.t100SubsequentReportIds[0] > 0
    ensures ApplyMessage(reg, report, EmptyMessage) == report
  {
  }
}

=== FILE: maxtouch_objects.dfy ===
/**
 maXTouch object-table discovery (`maxtouch_init`, the object-table walk).

 The controller's register map is not fixed: an information block gives the
 number of objects, and each object-table element gives an object's type, its
 register address and how many report IDs its instances emit. Report IDs are
 handed out sequentially across the whole table, starting at 1, so every
 successfully read element consumes its slice of the ID space whether or not
 its type is one the driver knows.

 The header `maxtouch.h` is not part of this model; the sizes of the
 information block (7 bytes) and of an object-table element (6 bytes) are
 those of the maXTouch object protocol.
 */
module MaxTouchObjects {
  import opened CTypes
  import opened Bus

  /** `DIGITIZER_FINGER_COUNT`, a build option; nothing below depends on its value. */
  const FingerCount: nat := 5

  /** `sizeof(mxt_information_block)`: where the object table starts. */
  const InformationBlockSize: nat := 7

  /** `sizeof(mxt_object_table_element)`. */
  const ObjectTableElementSize: nat := 6

  /** The object types the driver records (T2, T5, T6, T7, T8, T44, T46, T100). */
  const KnownTypes: set<int> := {2, 5, 6, 7, 8, 44, 46, 100}

  datatype InformationBlock = InformationBlock(
    familyId: uint8, variantId: uint8, version: uint8, build: uint8,
    matrixXSize: uint8, matrixYSize: uint8, numObjects: uint8)

  datatype ObjectTableElement = ObjectTableElement(
    objectType: uint8, positionLsByte: uint8, positionMsByte: uint8,
    sizeMinusOne: uint8, instancesMinusOne: uint8, reportIdsPerInstance: uint8)

  // ---------------------------------------------------------------------------
  // Helper arithmetic of the driver
  // ---------------------------------------------------------------------------

  /**
   `SWAP_BYTES(a)` as passed to a 16-bit register parameter: `(a << 8) | (a >> 8)`
   truncated to 16 bits, which exchanges the two bytes of `a`.
   */
  function SwapBytes(a: uint16): (r: uint16)
    ensures r / 0x100 == a % 0x100
    ensures r % 0x100 == a / 0x100
  {
    (a % 0x100) * 0x100 + a / 0x100
  }

  /** The byte-wise definition is the C expression: the shift-or truncated to 16 bits. */
  lemma SwapBytesIsTruncatedShift(a: uint16)
    ensures SwapBytes(a) == (a * 0x100 + a / 0x100) % 0x1_0000
  {
    var hi, lo := a / 0x100, a % 0x100;
    assert a == hi * 0x100 + lo;
    assert a * 0x100 + hi == hi * 0x1_0000 + (lo * 0x100 + hi);
    assert 0 <= lo * 0x100 + hi < 0x1_0000;
  }

  /** Swapping twice gives the original address back. */
  lemma SwapBytesInvolution(a: uint16)
    ensures SwapBytes(SwapBytes(a)) == a
  {
  }

  /** `DIVIDE_UNSIGNED_ROUND(n, d)`: division rounding halves up. */
  function DivideUnsignedRound(n: nat, d: nat): (r: nat)
    requires d > 0
    ensures r * d <= n + d / 2 < (r + 1) * d
  {
    (n + d / 2) / d
  }

  /** A non-zero multiple of a positive `d` lies at least `d` away from 0. */
  lemma NonZeroMultiple(j: int, d: int)
    requires d > 0 && j != 0
    ensures j * d >= d || j * d <= -d
  {
    if j > 0 {
      var m: nat := j - 1;
      assert m * d >= 0;
      assert j * d == m * d + d;
    } else {
      var m: nat := -j - 1;
      assert m * d >= 0;
      assert j * d == -(m * d) - d;
    }
  }

  /** The rounded quotient is a multiple of `d` nearest to `n`: no other multiple is closer. */
  lemma DivideUnsignedRoundIsNearest(n: nat, d: nat, k: int)
    requires d > 0
    ensures Abs(n - DivideUnsignedRound(n, d) * d) <= d / 2
    ensures Abs(n - DivideUnsignedRound(n, d) * d) <= Abs(n - k * d)
  {
    var r := DivideUnsignedRound(n, d);
    var e := n - r * d;
    assert -(d / 2) <= e < d - d / 2;
    if k != r {
      var j := r - k;
      NonZeroMultiple(j, d);
      assert k * d == r * d - j * d;
      assert n - k * d == e + j * d;
    }
  }

  /** `CPI_TO_SAMPLES(cpi, mm)`: the number of samples across `mm` millimetres at `cpi` counts per inch. */
  function CpiToSamples(cpi: nat, distanceInMm: nat): (r: nat)
    ensures Abs(r * 254 - cpi * distanceInMm * 10) <= 127
  {
    DivideUnsignedRound(cpi * distanceInMm * 10, 254)
  }

  // ---------------------------------------------------------------------------
  // The registry of discovered objects
  // ---------------------------------------------------------------------------

  /**
   The driver's static object-table data: the register address of each known
   object (stored byte-swapped, ready to pass to a 16-bit register read), T5's
   maximum message size, and the report IDs of the T100 touchscreen object.
   */
  datatype Registry = Registry(
    t2EncryptionStatus: uint16,
    t5MessageProcessor: uint16,
    t5MaxMessageSize: uint16,
    t6CommandProcessor: uint16,
    t7PowerConfig: uint16,
    t8AcquisitionConfig: uint16,
    t44MessageCount: uint16,
    t46CteConfig: uint16,
    t100Touchscreen: uint16,
    t100FirstReportId: uint16,
    t100SecondReportId: uint16,
    t100SubsequentReportIds: seq<uint16>,
    t100NumReports: nat)
  {
    /** The finger report IDs are consecutive after the first two T100 IDs. */
    predicate Wf() {
      && |t100SubsequentReportIds| == FingerCount
      && t100NumReports <= FingerCount
      && forall k :: 0 <= k < t100NumReports ==>
           t100SubsequentReportIds[k] == ToUint16(t100FirstReportId + 2 + k)
    }
  }

  /** Every static starts at zero: no object found. */
  const InitialRegistry := Registry(0, 0, 0, 0, 0, 0, 0, 0, 0, 0, 0, seq(FingerCount, _ => 0), 0)

  /** The stored address of a known object type. */
  function AddressOf(reg: Registry, t: int): uint16
    requires t in KnownTypes
  {
    if t == 2 then reg.t2EncryptionStatus
    else if t == 5 then reg.t5MessageProcessor
    else if t == 6 then reg.t6CommandProcessor
    else if t == 7 then reg.t7PowerConfig
    else if t == 8 then reg.t8AcquisitionConfig
    else if t == 44 then reg.t44MessageCount
    else if t == 46 then reg.t46CteConfig
    else reg.t100Touchscreen
  }

  /**
   `ms_byte | (ls_byte << 8)`: the element's address with its bytes swapped
   (the element holds it least significant byte first).
   */
  function StoredAddress(o: ObjectTableElement): uint16 {
    o.positionMsByte + o.positionLsByte * 0x100
  }

  /** Swapping the stored address back gives the address the element describes. */
  lemma StoredAddressIsSwapped(o: ObjectTableElement)
    ensures SwapBytes(StoredAddress(o)) == o.positionLsByte + o.positionMsByte * 0x100
    ensures StoredAddress(o) == SwapBytes(o.positionLsByte + o.positionMsByte * 0x100)
  {
    var stored := StoredAddress(o);
    var address := o.positionLsByte + o.positionMsByte * 0x100;
    assert stored / 0x100 == o.positionLsByte && stored % 0x100 == o.positionMsByte;
    assert address / 0x100 == o.positionMsByte && address % 0x100 == o.positionLsByte;
  }

  /** The report IDs an object's instances consume. */
  function ReportIdCount(o: ObjectTableElement): nat {
    o.reportIdsPerInstance * (o.instancesMinusOne + 1)
  }

  function Min(a: nat, b: nat): nat {
    if a < b then a else b
  }

  /**
   The `for (t100_num_reports = 0; ...)` loop: the first `n` finger report IDs
   follow the two T100 IDs starting at `reportId`; later entries keep their values.
   */
  function FingerReportIds(ids: seq<uint16>, reportId: int, n: nat): (r: seq<uint16>)
    requires n <= |ids|
    ensures |r| == |ids|
    ensures forall k :: 0 <= k < n ==> r[k] == ToUint16(reportId + 2 + k)
    ensures forall k :: n <= k < |ids| ==> r[k] == ids[k]
  {
    if n == 0 then ids
    else FingerReportIds(ids, reportId, n - 1)[n - 1 := ToUint16(reportId + 2 + (n - 1))]
  }

  /** The finger IDs follow the stored (16-bit) first T100 ID, as the registry invariant demands. */
  lemma FingerIdsFollowFirst(ids: seq<uint16>, reportId: int, n: nat)
    requires n <= |ids|
    ensures forall k :: 0 <= k < n ==> FingerReportIds(ids, reportId, n)[k] == ToUint16(ToUint16(reportId) + 2 + k)
  {
    forall k | 0 <= k < n
      ensures FingerReportIds(ids, reportId, n)[k] == ToUint16(ToUint16(reportId) + 2 + k)
    {
      ToUint16Add(reportId, 2 + k);
    }
  }

  /** Store `address` as the address of known type `t`; nothing else changes. */
  function SetAddress(reg: Registry, t: int, address: uint16): (r: Registry)
    requires t in KnownTypes
    ensures forall t' :: t' in KnownTypes ==> AddressOf(r, t') == if t' == t then address else AddressOf(reg, t')
    ensures r.t5MaxMessageSize == reg.t5MaxMessageSize
    ensures r.t100FirstReportId == reg.t100FirstReportId && r.t100SecondReportId == reg.t100SecondReportId
    ensures r.t100SubsequentReportIds == reg.t100SubsequentReportIds && r.t100NumReports == reg.t100NumReports
  {
    if t == 2 then reg.(t2EncryptionStatus := address)
    else if t == 5 then reg.(t5MessageProcessor := address)
    else if t == 6 then reg.(t6CommandProcessor := address)
    else if t == 7 then reg.(t7PowerConfig := address)
    else if t == 8 then reg.(t8AcquisitionConfig := address)
    else if t == 44 then reg.(t44MessageCount := address)
    else if t == 46 then reg.(t46CteConfig := address)
    else reg.(t100Touchscreen := address)
  }

  /** The T100 case: the two T100 report IDs and the finger report IDs that follow them. */
  function RecordT100Ids(reg: Registry, o: ObjectTableElement, reportId: int): (r: Registry)
    requires reg.Wf()
    ensures r.Wf()
    ensures r.t100FirstReportId == ToUint16(reportId)
    ensures r.t100SecondReportId == ToUint16(reportId + 1)
    ensures r.t100NumReports == Min(FingerCount, o.reportIdsPerInstance)
    ensures forall k :: 0 <= k < r.t100NumReports ==> r.t100SubsequentReportIds[k] == ToUint16(reportId + 2 + k)
    ensures forall t :: t in KnownTypes ==> AddressOf(r, t) == AddressOf(reg, t)
    ensures r.t5MaxMessageSize == reg.t5MaxMessageSize
  {
    var n := Min(FingerCount, o.reportIdsPerInstance);
    var ids := FingerReportIds(reg.t100SubsequentReportIds, reportId, n);
    FingerIdsFollowFirst(reg.t100SubsequentReportIds, reportId, n);
    reg.(t100FirstReportId := ToUint16(reportId),
         t100SecondReportId := ToUint16(reportId + 1),
         t100SubsequentReportIds := ids,
         t100NumReports := n)
  }

  /** The `switch (object.type)` of the walk: record a known object, ignore any other (there is no default). */
  function Record(reg: Registry, o: ObjectTableElement, reportId: int): (r: Registry)
    requires reg.Wf()
    ensures r.Wf()
    ensures o.objectType !in KnownTypes ==> r == reg
    ensures forall t :: t in KnownTypes ==>
      AddressOf(r, t) == if t == o.objectType then StoredAddress(o) else AddressOf(reg, t)
    ensures o.objectType == 100 ==>
      && r.t100FirstReportId == ToUint16(reportId)
      && r.t100SecondReportId == ToUint16(reportId + 1)
      && r.t100NumReports == Min(FingerCount, o.reportIdsPerInstance)
      && forall k :: 0 <= k < r.t100NumReports ==> r.t100SubsequentReportIds[k] == ToUint16(reportId + 2 + k)
    ensures o.objectType != 100 ==>
      && r.t100FirstReportId == reg.t100FirstReportId
      && r.t100SecondReportId == reg.t100SecondReportId
      && r.t100SubsequentReportIds == reg.t100SubsequentReportIds
      && r.t100NumReports == reg.t100NumReports
    ensures r.t5MaxMessageSize == if o.objectType == 5 then ToUint16(o.sizeMinusOne - 1) else reg.t5MaxMessageSize
  {
    var t := o.objectType;
    if t !in KnownTypes then reg
    else
      var withAddress := SetAddress(reg, t, StoredAddress(o));
      if t == 5 then withAddress.(t5MaxMessageSize := ToUint16(o.sizeMinusOne - 1))
      else if t == 100 then RecordT100Ids(withAddress, o, reportId)
      else withAddress
  }

  // ---------------------------------------------------------------------------
  // The walk
  // ---------------------------------------------------------------------------

  /** The walk's loop state: the registry, the report-ID counter and the next element's address. */
  datatype Walk = Walk(registry: Registry, reportId: int, elementAddress: uint16)

  const InitialWalk := Walk(InitialRegistry, 1, InformationBlockSize)

  /**
   One iteration of the walk. A failed element read changes nothing, so the
   next iteration reads the same element again.
   */
  function Step(w: Walk, reply: Reply<ObjectTableElement>): Walk
    requires w.registry.Wf()
  {
    if reply.Ok() then
      Walk(Record(w.registry, reply.value, w.reportId),
           w.reportId + ReportIdCount(reply.value),
           ToUint16(w.elementAddress + ObjectTableElementSize))
    else
      w
  }

  /** The number of successfully read elements. */
  function Successes(rs: seq<Reply<ObjectTableElement>>): (n: nat)
    ensures n <= |rs|
  {
    if |rs| == 0 then 0
    else Successes(rs[..|rs| - 1]) + (if rs[|rs| - 1].Ok() then 1 else 0)
  }

  /** The report IDs consumed by the successfully read elements. */
  function IdsUsed(rs: seq<Reply<ObjectTableElement>>): nat {
    if |rs| == 0 then 0
    else IdsUsed(rs[..|rs| - 1]) + (if rs[|rs| - 1].Ok() then ReportIdCount(rs[|rs| - 1].value) else 0)
  }

  /** The position of the last successfully read element of type `t`, or -1. */
  function LastOfType(rs: seq<Reply<ObjectTableElement>>, t: int): (j: int)
    ensures -1 <= j < |rs|
    ensures j >= 0 ==> rs[j].Ok() && rs[j].value.objectType == t
    ensures forall i :: j < i < |rs| ==> !(rs[i].Ok() && rs[i].value.objectType == t)
  {
    if |rs| == 0 then -1
    else if rs[|rs| - 1].Ok() && rs[|rs| - 1].value.objectType == t then |rs| - 1
    else LastOfType(rs[..|rs| - 1], t)
  }

  /** The address of the last element of type `t` read, or the sentinel 0. */
  function ExpectedAddress(rs: seq<Reply<ObjectTableElement>>, t: int): uint16 {
    var j := LastOfType(rs, t);
    if j < 0 then 0 else StoredAddress(rs[j].value)
  }

  /** T5's maximum message size from the last T5 element read, or 0. */
  function ExpectedMaxMessageSize(rs: seq<Reply<ObjectTableElement>>): uint16 {
    var j := LastOfType(rs, 5);
    if j < 0 then 0 else ToUint16(rs[j].value.sizeMinusOne - 1)
  }

  /** The T100 report IDs are those handed out when the last T100 element was read. */
  predicate T100IdsFrom(reg: Registry, rs: seq<Reply<ObjectTableElement>>) {
    var j := LastOfType(rs, 100);
    if j < 0 then
      reg.t100FirstReportId == 0 && reg.t100SecondReportId == 0 && reg.t100NumReports == 0
    else
      && reg.t100FirstReportId == ToUint16(1 + IdsUsed(rs[..j]))
      && reg.t100SecondReportId == ToUint16(2 + IdsUsed(rs[..j]))
      && reg.t100NumReports == Min(FingerCount, rs[j].value.reportIdsPerInstance)
  }

  /** What the walk state says after reading the replies `rs`. */
  predicate Summarises(w: Walk, rs: seq<Reply<ObjectTableElement>>) {
    && w.reportId == 1 + IdsUsed(rs)
    && w.elementAddress == InformationBlockSize + ObjectTableElementSize * Successes(rs)
    && w.registry.Wf()
    && (forall t :: t in KnownTypes ==> AddressOf(w.registry, t) == ExpectedAddress(rs, t))
    && w.registry.t5MaxMessageSize == ExpectedMaxMessageSize(rs)
    && T100IdsFrom(w.registry, rs)
  }

  /** One more iteration keeps the summary in step with one more reply. */
  lemma StepSummarises(w: Walk, rs: seq<Reply<ObjectTableElement>>, reply: Reply<ObjectTableElement>)
    requires |rs| < 0xFF
    requires Summarises(w, rs)
    ensures Summarises(Step(w, reply), rs + [reply])
  {
    var rs' := rs + [reply];
    assert rs'[..|rs|] == rs;
    forall j | 0 <= j <= |rs|
      ensures rs'[..j] == rs[..j]
    {
    }
  }

  /** Before the first iteration nothing has been read. */
  lemma InitialSummarises()
    ensures Summarises(InitialWalk, [])
  {
  }

  /** The loop of the walk, one iteration per element read. */
  method RunWalk(replies: seq<Reply<ObjectTableElement>>) returns (w: Walk, elementReads: seq<uint16>)
    requires |replies| <= 0xFF
    ensures Summarises(w, replies)
    ensures |elementReads| == |replies|
    ensures forall i :: 0 <= i < |replies| ==>
      elementReads[i] == SwapBytes(InformationBlockSize + ObjectTableElementSize * Successes(replies[..i]))
  {
    w := InitialWalk;
    elementReads := [];
    var i := 0;
    InitialSummarises();
    assert replies[..0] == [];
    while i < |replies|
      invariant 0 <= i <= |replies|
      invariant |elementReads| == i
      invariant Summarises(w, replies[..i])
      invariant forall j :: 0 <= j < i ==>
        elementReads[j] == SwapBytes(InformationBlockSize + ObjectTableElementSize * Successes(replies[..j]))
    {
      elementReads := elementReads + [SwapBytes(w.elementAddress)];
      StepSummarises(w, replies[..i], replies[i]);
      assert replies[..i + 1] == replies[..i] + [replies[i]];
      w := Step(w, replies[i]);
      i := i + 1;
    }
    assert replies[..i] == replies;
  }

  /**
   The object-table walk of `maxtouch_init` over the element reads `replies`
   (one per object the information block announced). Returns the registry,
   the next free report ID and the register of every element read issued:
   the i-th read addresses the element after the ones read successfully so far.
   */
  method WalkObjectTable(replies: seq<Reply<ObjectTableElement>>)
    returns (registry: Registry, nextReportId: int, elementReads: seq<uint16>)
    requires |replies| <= 0xFF
    ensures nextReportId == 1 + IdsUsed(replies)
    ensures |elementReads| == |replies|
    ensures forall i :: 0 <= i < |replies| ==>
      elementReads[i] == SwapBytes(InformationBlockSize + ObjectTableElementSize * Successes(replies[..i]))
    ensures registry.Wf()
    ensures forall t :: t in KnownTypes ==> AddressOf(registry, t) == ExpectedAddress(replies, t)
    ensures registry.t5MaxMessageSize == ExpectedMaxMessageSize(replies)
    ensures T100IdsFrom(registry, replies)
  {
    var w;
    w, elementReads := RunWalk(replies);
    registry, nextReportId := w.registry, w.reportId;
  }

  /**
   The discovery part of `maxtouch_init`: read the information block, then walk
   the object table if that read succeeded. A failed information-block read
   leaves every address at its sentinel zero.
   */
  method Discover(info: Reply<InformationBlock>, replies: seq<Reply<ObjectTableElement>>)
    returns (registry: Registry, elementReads: seq<uint16>)
    requires info.Ok() ==> |replies| == info.value.numObjects
    ensures registry.Wf()
    ensures !info.Ok() ==> registry == InitialRegistry && elementReads == []
    ensures info.Ok() ==> |elementReads| == |replies|
    ensures info.Ok() ==> forall t :: t in KnownTypes ==> AddressOf(registry, t) == ExpectedAddress(replies, t)
    ensures info.Ok() ==> T100IdsFrom(registry, replies)
  {
    if info.Ok() {
      var next;
      registry, next, elementReads := WalkObjectTable(replies);
    } else {
      registry, elementReads := InitialRegistry, [];
    }
  }
}

=== FILE: reports.dfy ===
/**
 The report values the drivers hand back to the pointing-device and digitizer
 layers: the relative mouse report (8-bit build, `MOUSE_EXTENDED_REPORT` off)
 and the multi-finger digitizer report.
 */
module Reports {
  import opened CTypes

  /** Bounds of a mouse report's x/y fields in the 8-bit build (`INT8_MIN`, `INT8_MAX`). */
  const XyReportMin: int := -0x80
  const XyReportMax: int := 0x7F

  /** `report_mouse_t`: button bitmask and signed 8-bit motion. */
  datatype MouseReport = MouseReport(buttons: bv8, x: int8, y: int8, v: int8, h: int8)

  /** The zero-initialised report (`report_mouse_t r = {0}`). */
  const EmptyMouseReport := MouseReport(0, 0, 0, 0, 0)

  /** The mask `1 << k` of button `k`. */
  function Mask(k: nat): bv8
    requires k < 8
  {
    if k == 0 then 0x01 else if k == 1 then 0x02 else if k == 2 then 0x04 else if k == 3 then 0x08
    else if k == 4 then 0x10 else if k == 5 then 0x20 else if k == 6 then 0x40 else 0x80
  }

  /** Bit `k` of a button mask. */
  predicate ButtonBit(buttons: bv8, k: nat)
    requires k < 8
  {
    buttons & Mask(k) != 0
  }

  /**
   `pointing_device_handle_buttons`: press or release button `button`
   (`POINTING_DEVICE_BUTTON1` is 0) in the mask, leaving every other button as it was.
   */
  function HandleButtons(buttons: bv8, pressed: bool, button: nat): (r: bv8)
    requires button < 8
    ensures ButtonBit(r, button) == pressed
    ensures forall k :: 0 <= k < 8 && k != button ==> ButtonBit(r, k) == ButtonBit(buttons, k)
  {
    if pressed then buttons | Mask(button) else buttons & !Mask(button)
  }

  /** One finger of `digitizer_t`: tip switch, confidence and absolute position. */
  datatype Finger = Finger(tip: bool, confidence: bool, x: uint16, y: uint16)

  /** `digitizer_t` with `DIGITIZER_FINGER_COUNT` fingers and three buttons. */
  datatype DigitizerReport = DigitizerReport(fingers: seq<Finger>, button1: bool, button2: bool, button3: bool)
}
